=== FILE: README.md ===
# Live React code editor: project-state core

This project models the part of the live React playground that owns the
project: the map from file paths to file entries, and the four pure helpers
that rewrite it (`addNewFile`, `deleteFile`, `renameFile`, `addDependency`).
It also models the editor handlers that drive these helpers together with
the active-file selection, the terminal's line editor and command routing,
and the file explorer's naming, listing order, indentation and button
guards.

Modules, following the program's structure:

- `Wrappers`: `Option`, `Result` and map lookup.
- `Text`: the JavaScript string built-ins the code relies on, with their
  ECMAScript meaning. These are `startsWith`, `split` on one character,
  `trim` (the full ECMAScript white-space set), `${n}` for an integer, and
  code-point ordering.
- `Manifest`: the parsed `package.json` as a JSON value, and the dependency
  merge. `JSON.parse` and `JSON.stringify` are a codec parameter. A value
  *round-trips* through a codec when parsing what it printed gives the value
  back. The real JSON functions do this for every value whose numbers are
  finite doubles. That covers every number `JSON.parse` returns except one
  that overflows to `Infinity`.
- `Sandpack`: `FileStructure`, `DEFAULT_FILES` and the four helpers.
- `Editor`: the `CodeEditor` handlers, as transitions of the pair
  (files, active file).
- `Terminal`: the key handler's line buffer and `processCommand`.
- `Explorer`: name normalisation, the listing comparator and sort, depth and
  label, and the rename/delete guard.
- `Session`: the wiring from the terminal and the explorer into the editor
  handlers.

An exception thrown by a project helper is modelled as a `Result` failure
named after the JavaScript error class. A missing manifest or a primitive
manifest root gives `TypeError`; unparsable manifest text gives
`SyntaxError`. `handleAddDependency` itself only queues a state updater and
returns normally. The exception is raised later, when React runs that updater
while re-rendering the editor. Nothing catches it, so React unmounts the whole
editor. A `Failure` therefore ends the session rather than refusing one
operation, and the model does not continue after it. A key bound to
`undefined` is an entry of value `None`. Among `/`-rooted paths, only
`renameFile` of a missing path produces one.

Rename checks nothing: it neither requires the source to exist nor
protects `/index.js` or `/package.json`, and it silently overwrites an
existing target. Deleting the active file falls back to `/App.js`, whether
or not `/App.js` still exists. Lemmas `Editor.RenameCanRemoveIndex`,
`Editor.RenameMissingBindsUndefined`, `Session.ExplorerRenameOntoManifest`
and `Editor.DeletingActiveAppDangles` state these behaviours.

## Model

| member | source | states |
|---|---|---|
| Sandpack.DefaultFiles | src/utils/sandpackUtils.ts:41-73 | The starter project has exactly `/App.js`, `/index.js` and `/package.json`. Only `/App.js` is marked active. The manifest text is the printed starter manifest (name, version, description, main, and react, react-dom and react-scripts pinned), and it parses back to that manifest when the manifest round-trips. |
| Sandpack.AddNewFile | src/utils/sandpackUtils.ts:78-90 | The path is bound to the code, marked active, replacing any previous entry. The key set gains just that path and every other entry is unchanged. |
| Sandpack.DeleteFile | src/utils/sandpackUtils.ts:93-100 | The path is gone, the survivors keep their entries, and deleting a missing path changes nothing. |
| Sandpack.RenameFile | src/utils/sandpackUtils.ts:103-113 | The new path holds the old path's former value, or `undefined` when there was none (file keys as a plain map; see "## Left out"). The old path is dropped unless it equals the new one. An entry already at the new path is overwritten. All other entries are kept. |
| Sandpack.AddDependency | src/utils/sandpackUtils.ts:116-134 | A missing or `undefined` manifest throws `TypeError` and unparsable text throws `SyntaxError`. It fails exactly when the parsed root is neither object nor array, and then with `TypeError`. On success the key set is unchanged, only the manifest entry can differ, the manifest's `active` flag is kept, and its text is the print of the parsed root with the dependency merged in. |
| Sandpack.AddNewFileIdempotent | src/utils/sandpackUtils.ts:78-90 | Adding the same file twice equals adding it once. |
| Sandpack.DeleteUndoesAdd | src/utils/sandpackUtils.ts:78-100 | Deleting a path just added yields the original map minus that path. |
| Sandpack.RenameToSelf | src/utils/sandpackUtils.ts:103-113 | Renaming a present path onto itself is the identity. |
| Sandpack.RenameMissingToSelf | src/utils/sandpackUtils.ts:103-113 | Renaming a missing path onto itself adds an `undefined` binding. |
| Sandpack.RenameRoundTrip | src/utils/sandpackUtils.ts:103-113 | Renaming a present path to a fresh one and back restores the original map. |
| Sandpack.AddDependencyRecordsVersion | src/utils/sandpackUtils.ts:116-134 | For an object manifest the update succeeds and writes the printed manifest whose `dependencies` are the old dependencies plus `name: version`, every other field kept. That text parses back to this manifest whenever it round-trips. |
| Sandpack.AddDependencyIdempotent | src/utils/sandpackUtils.ts:116-134 | When the manifest written by the first install round-trips, installing the same package and version twice gives the same files as installing it once. |
| Sandpack.DefaultProjectGainsLodash | src/utils/sandpackUtils.ts:60-73 | Installing `lodash` at `latest` into the starter project succeeds and writes a manifest with four dependencies: the three React packages at their pinned versions and `lodash`. |
| Manifest.WithDependency | src/utils/sandpackUtils.ts:121-125 | An object root gets `dependencies` set to an object holding `name: version`, and every other field is kept. An array root is printed unchanged, because the new property is not an array element. A primitive or null root throws `TypeError`. |
| Manifest.Spread | src/utils/sandpackUtils.ts:122-125 | Object spread copies an object's fields. An array contributes its index-keyed elements, and a string one property per character, keyed by its index, holding that character. `undefined`, `null`, booleans and numbers contribute nothing. |
| Manifest.IndexKeyed | src/utils/sandpackUtils.ts:122-125 | The keys are exactly the decimal names of the indices, and element `i` is found under the name of `i`. |
| Manifest.MergeKeepsOthers | src/utils/sandpackUtils.ts:122-125 | Existing dependencies other than `name` survive the merge unchanged, and `name` is the only key added. |
| Manifest.MergeIntoMissing | src/utils/sandpackUtils.ts:122-125 | A manifest without `dependencies`, or with `null` there, ends up with exactly the one new dependency. |
| Manifest.WithDependencyIdempotent | src/utils/sandpackUtils.ts:121-125 | Merging the same dependency twice equals merging it once. |
| Editor.Initial | src/components/CodeEditor.tsx:25-26 | The starting selection names a file of the project, and both protected files are present. |
| Editor.PackageToInstall | src/components/CodeEditor.tsx:29-40 | A package is extracted exactly when the line starts with `npm i` (which covers `npm install`) and has at least two spaces. The name contains no space and no `@`. |
| Editor.OnTerminalCommand | src/components/CodeEditor.tsx:29-40 | A line that is not an install request leaves the state unchanged. An install request is handled as adding its package. Only the manifest entry may change, and the active file never does. |
| Editor.OnAddDependency | src/components/CodeEditor.tsx:42-44 | The files become those of recording the package at `latest`, and when that update throws, the failure is the error that ends the session (see above). Only the manifest entry may change, and the selection does not. |
| Editor.OnFileSelect | src/components/CodeEditor.tsx:46-48 | Any path becomes the active file and the files are untouched. |
| Editor.OnAddFile | src/components/CodeEditor.tsx:50-53 | The file is upserted as an active entry and becomes the selection, so the selection resolves. Other entries are unchanged. |
| Editor.OnDeleteFile | src/components/CodeEditor.tsx:55-63 | `/index.js` and `/package.json` are refused. Any other path is removed and the survivors keep their entries. Deleting the active file moves the selection to `/App.js`. Both protected files survive every delete. |
| Editor.OnRenameFile | src/components/CodeEditor.tsx:65-70 | The entry moves as in `renameFile`. The selection follows it exactly when it was on the old path. |
| Editor.GeneratedPath | src/components/CodeEditor.tsx:74-75 | The generated name is `/GeneratedComponent_`, then the decimal clock reading, then `.js`. The reading can be cut back out of the name. |
| Editor.OnApplyGeneratedCode | src/components/CodeEditor.tsx:72-77 | The code is saved as an active file under the generated name, which becomes the selection. Nothing else changes. |
| Editor.GeneratedPathInjective | src/components/CodeEditor.tsx:74-75 | Different clock readings never give the same generated name. |
| Editor.InstallWords | src/components/CodeEditor.tsx:29-37 | A line `npm <verb> <rest>` whose verb starts with `i` installs the first space-separated word of `rest`, cut at its first `@`. |
| Editor.InstallDiscardsVersion | src/components/CodeEditor.tsx:31-37 | `npm install pkg@version` installs `pkg`: the version specifier is dropped. |
| Editor.ShortInstall | src/components/CodeEditor.tsx:31-37 | `npm i pkg` installs `pkg`; because the prefix test is literal, `npm init pkg` installs `pkg` too. |
| Editor.ScopedPackageIsEmpty | src/components/CodeEditor.tsx:36 | A scoped package (`npm i @scope/x`) gives the empty package name. |
| Editor.DoubleSpaceIsEmpty | src/components/CodeEditor.tsx:32-34 | Two spaces before the package make the third word, and so the package name, empty. |
| Editor.InstallRecordsLatest | src/components/CodeEditor.tsx:29-44 | An install line for `pkg@version` succeeds and writes the printed manifest with `pkg` at `latest`, the other dependencies and fields kept; it parses back to that manifest whenever it round-trips. The selection does not change. |
| Editor.ProtectedDeleteRefused | src/components/CodeEditor.tsx:56-57 | Deleting `/index.js` or `/package.json` leaves the whole state unchanged. |
| Editor.DeletingActiveAppDangles | src/components/CodeEditor.tsx:59-62 | Deleting the selected `/App.js` leaves the selection on a path that no longer exists. |
| Editor.DeletePreservesResolution | src/components/CodeEditor.tsx:55-63 | A delete keeps a resolving selection resolving if and only if the path is protected, or is not the active file, or `/App.js` exists and is not the deleted path. |
| Editor.RenamePreservesResolution | src/components/CodeEditor.tsx:65-70 | A rename always keeps a resolving selection resolving. |
| Editor.RenameCanRemoveIndex | src/components/CodeEditor.tsx:65-70 | Rename has no protection: it can move the entry module `/index.js` away. |
| Editor.RenameMissingBindsUndefined | src/components/CodeEditor.tsx:65-70 | Renaming a missing `/`-rooted path binds the new path to `undefined` instead of failing. |
| Editor.SelectMissing | src/components/CodeEditor.tsx:46-48 | Selection is not validated: a missing path can become the active file. |
| Terminal.Replay | src/components/Terminal.tsx:59-89 | Feeding a run of keys to the handler dispatches at most one command per key, and nothing at all without an Enter. |
| Terminal.Step | src/components/Terminal.tsx:59-89 | Enter empties the line and submits its trimmed text, except that a blank line submits nothing. Backspace drops the last character of a non-empty line. A key whose first character is printable is appended. Any other key, and any non-Enter key, submits nothing. |
| Terminal.Route | src/components/Terminal.tsx:91-109 | `clear` and `help` are handled by the terminal, and every other command is passed to the host unchanged. |
| Terminal.StepForwardsCommand | src/components/Terminal.tsx:63-68 | One key never forwards an empty, untrimmed or built-in command. |
| Terminal.Feed | src/components/Terminal.tsx:57-89 | Processing keys one at a time agrees with the recursive replay of the key handler. Every command it forwards is non-empty, trimmed and not a built-in. |
| Terminal.ReplayForwardsCommands | src/components/Terminal.tsx:63-109 | Over any run of keys, every command that reaches the host is non-empty, trimmed and not a built-in. |
| Terminal.ReplayKeepsPrintable | src/components/Terminal.tsx:84-88 | The line buffer only ever holds characters with codes 32 to 126. |
| Terminal.TypingAppends | src/components/Terminal.tsx:84-88 | Typing printable text appends it to the line and submits nothing. |
| Terminal.ReplayAppend | src/components/Terminal.tsx:57-89 | Replaying two runs of keys in turn equals replaying their concatenation. |
| Terminal.TypeAndEnter | src/components/Terminal.tsx:63-73 | Typing a line and pressing Enter dispatches its trimmed text exactly once, or nothing for a blank line, and leaves the buffer empty. |
| Explorer.Normalize | src/components/FileExplorer.tsx:47 | The result always starts with `/`. A name already starting with `/` is kept, and any other name gets one `/` in front. |
| Explorer.NormalizeIdempotent | src/components/FileExplorer.tsx:47 | Normalising twice equals normalising once. |
| Explorer.AddRequest | src/components/FileExplorer.tsx:45-53 | The create button fires exactly when the name is non-empty. It passes the normalised path and the typed content. |
| Explorer.RenameRequest | src/components/FileExplorer.tsx:55-63 | The rename button fires exactly when both the target and the new name are non-empty. The old path is passed as is and the new name normalised. |
| Explorer.NestedIffTwoSlashes | src/components/FileExplorer.tsx:71-72 | A path counts as a folder entry exactly when it contains at least two `/`. |
| Explorer.PrecedesTotal | src/components/FileExplorer.tsx:65-79 | On distinct paths, exactly one of the two sorts before the other. |
| Explorer.PrecedesIrreflexive | src/components/FileExplorer.tsx:65-79 | No path sorts before itself. |
| Explorer.PrecedesTransitive | src/components/FileExplorer.tsx:65-79 | The listing order is transitive, so the comparator is a consistent strict order. |
| Explorer.Insert | src/components/FileExplorer.tsx:65-79 | Inserting a new path into a sorted listing keeps it sorted. The result is the old listing plus that path, as a multiset. |
| Explorer.FileNames | src/components/FileExplorer.tsx:65-79 | The listing contains every path of the project exactly once, in comparator order. |
| Explorer.SortedUnique | src/components/FileExplorer.tsx:65-79 | Two sorted listings of the same paths are identical, so the display order does not depend on key enumeration order. |
| Explorer.SortedListingShape | src/components/FileExplorer.tsx:65-79 | In a sorted listing `/package.json` is last when present. No top-level path precedes a folder path. Within a class, order is code-point order. |
| Explorer.DisplayName | src/components/FileExplorer.tsx:149 | The label is the text after the last `/`: it ends the path, has no `/`, and is preceded by a `/` unless it is the whole path. |
| Explorer.SegmentedPath | src/components/FileExplorer.tsx:148-149 | For `/a/b/.../z` with non-empty segments, the indentation depth is the number of segments minus one and the label is the last segment. The path is a folder entry exactly when it has at least two segments. |
| Explorer.NonEmptyParts | src/components/FileExplorer.tsx:148 | Filtering keeps every non-empty part, as many times as it occurs, and drops every empty one. |
| Explorer.Depth | src/components/FileExplorer.tsx:148 | The depth is one less than the number of non-empty `/`-separated parts, so between -1 and the number of `/`. |
| Explorer.Compare | src/components/FileExplorer.tsx:65-79 | The comparator returns -1, 0 or 1. It returns 1 when the first path is `/package.json` and -1 when only the second is, so the manifest sorts last. Otherwise a folder path sorts before a top-level one. Distinct paths never compare equal. |
| Explorer.OffersRenameDelete | src/components/FileExplorer.tsx:169 | Rename and delete are offered for every entry except `/package.json`, `/index.js` included. |
| Session.HandleDispatch | src/components/CodeEditor.tsx:149 | Terminal built-ins never reach the editor. A forwarded command is handled by `handleTerminalCommand`, which changes at most the manifest entry and never the selection. |
| Session.SubmitLine | src/components/Terminal.tsx:63-73 | Pressing Enter on a blank line leaves the project alone. Otherwise the trimmed line is routed, and unless it is `clear` or `help` it goes to `handleTerminalCommand`. Every entry but the manifest, the key set and the selection are kept. |
| Session.BuiltinsLeaveProjectAlone | src/components/Terminal.tsx:91-105 | `clear` and `help`, even with surrounding blanks, never change the project. |
| Session.TypedInstall | src/components/Terminal.tsx:57-108 | Typing `npm install pkg@version` and pressing Enter forwards that exact line once. The manifest written is the printed manifest with `pkg` at `latest` and everything else kept, and parses back to it whenever it round-trips. |
| Session.InstallLineIsClean | src/components/Terminal.tsx:66-67 | An install line of printable words is already trimmed and not blank. |
| Session.ExplorerAdd | src/components/FileExplorer.tsx:45-53 | An empty name does nothing. Otherwise the normalised path is bound to the typed content, marked active, and selected; the key set gains just that path and every other entry is kept. |
| Session.ExplorerDelete | src/components/FileExplorer.tsx:169-212 | The manifest offers no delete button and the editor refuses `/index.js`, so both protected files survive. Any other path is deleted as by `handleDeleteFile`: it is removed and every survivor keeps its entry. |
| Session.ExplorerRename | src/components/FileExplorer.tsx:55-63 | The manifest has no rename button and empty names do nothing. Otherwise the editor renames to the normalised new name. |
| Session.ExplorerCanRenameIndexAway | src/components/FileExplorer.tsx:55-63 | The explorer lets `/index.js` be renamed to `main.js`, moving its entry to `/main.js`. |
| Session.ExplorerRenameOntoManifest | src/components/FileExplorer.tsx:55-63 | Renaming any file to `package.json` silently replaces the manifest entry with that file's entry. |
| Text.Split | src/components/CodeEditor.tsx:32 | Splitting on a character gives one more part than there are separators, and no part contains the separator. |
| Text.JoinSplit | src/components/CodeEditor.tsx:32 | Joining the parts of a split gives the original text. |
| Text.SplitJoin | src/components/CodeEditor.tsx:32 | Splitting a join of separator-free parts gives the parts back. |
| Text.SplitAppend | src/components/CodeEditor.tsx:32 | Splitting `a + c + b` gives the parts of `a` followed by the parts of `b`. |
| Text.SplitHead | src/components/CodeEditor.tsx:36 | The first part of a split is a prefix of the text, followed by the separator when it is not the whole text. |
| Text.SplitLast | src/components/FileExplorer.tsx:149 | The last part of a split is a suffix of the text, preceded by the separator when it is not the whole text. |
| Text.Trim | src/components/Terminal.tsx:66-67 | The trimmed text is empty exactly for all-white-space input. Otherwise it begins and ends with a non-space character. |
| Text.TrimStartSpec | src/components/Terminal.tsx:66-67 | Trimming the start keeps a suffix of the text, drops only white space, and stops at a non-space character. |
| Text.TrimEndSpec | src/components/Terminal.tsx:66-67 | Trimming the end keeps a prefix of the text, drops only white space, and stops at a non-space character. |
| Text.TrimUnique | src/components/Terminal.tsx:66-67 | Whatever core text is wrapped in white space, trimming returns exactly that core. |
| Text.TrimIdempotent | src/components/Terminal.tsx:66-67 | Trimming twice equals trimming once. |
| Text.NatToStringRoundTrip | src/components/CodeEditor.tsx:75 | Reading back the decimal digits of a natural number gives the number. |
| Text.IntToString | src/components/CodeEditor.tsx:75 | `${i}` is a minus sign for a negative value followed by digits that read back as the magnitude, with no leading zero except for 0 itself. |
| Text.IntToStringInjective | src/components/CodeEditor.tsx:75 | Different integers print differently. |
| Text.LexCompare | src/components/FileExplorer.tsx:78 | The comparison returns -1, 0 or 1, and 0 exactly for equal strings. |
| Text.LexAntisymmetric | src/components/FileExplorer.tsx:78 | Swapping the arguments negates the comparison. |
| Text.LexTransitive | src/components/FileExplorer.tsx:78 | The code-point order is transitive. |

## Left out

- JSON text: `JSON.parse` and `JSON.stringify(_, null, 2)` are a codec parameter. The exact printed text, two-space indentation and key order are not modelled. A map has no key order, so where a new dependency lands in the printed object is not modelled.
- JSON numbers are exact reals rather than IEEE doubles, so `Infinity` and `-0` have no counterpart.
- AddDependencyRecordsVersion, DefaultProjectGainsLodash, InstallRecordsLatest, TypedInstall: the text written is stated unconditionally, but reading it back as the merged manifest is promised only when that manifest round-trips. A manifest number beyond the double range is parsed as `Infinity` and printed back as `null`, and a model number that is not a double (such as 1/3) is rounded to one when printed, so neither survives; which values round-trip is up to the codec.
- AddDependencyIdempotent: it requires that the manifest written by the first install round-trips, which is more than the program needs. The program is idempotent even when a number overflows: `Infinity` prints as `null`, and `null` prints back as `null`, so the second install writes the same text. The lemma does not cover that case.
- DefaultFiles: the starter manifest text is modelled as the print of the starter manifest. The literal in the source is exactly that print with two-space indentation, but the text itself is not modelled.
- The contents of the starter `/App.js` and `/index.js` are parameters. Only their presence and flags are modelled.
- `localeCompare`: the model uses code-point lexicographic order. Locale-aware collation depends on the host's ICU data.
- Strings are sequences of Unicode scalar values, not UTF-16 code units. Characters outside the Basic Multilingual Plane count as one character here but two in JavaScript, which changes their order, length, `slice` and spread.
- `new Date().getTime()`: the clock reading is a parameter of `Editor.OnApplyGeneratedCode`.
- React state plumbing is not modelled. Each handler is a pure transition; `setFiles` updaters and batching are not modelled. A manifest error surfaces at the next render, not when the handler returns. With no error boundary it unmounts the editor. The model reports it as a `Failure` and describes nothing after it.
- File keys are modelled as a plain map. A `FileStructure` is a plain JavaScript object, so a key inherited from `Object.prototype` (`"toString"`) reads as a function rather than `undefined`, and assigning `"__proto__"` calls the prototype setter instead of adding a key. Neither is modelled, because every path the program creates starts with `/` (`Explorer.Normalize`, the starter files, `Editor.GeneratedPath`), and no such path names an inherited property.
- Terminal re-creation: the terminal's effect reruns whenever the `onCommand` callback changes, which happens on every editor render. That resets the line buffer. This is not modelled: the buffer is modelled as one persistent line.
- xterm.js writes (echo, `\b \b`, prompts, colours, help text, `clear`), fit/resize and the welcome banner are not modelled. Routing to `ClearScreen` and `ShowHelp` stands for them.
- Terminal.ReplayKeepsPrintable: it assumes that a key whose first character is printable is a single character, as xterm delivers ordinary typing. A multi-character `onKey` key, which xterm does not send for ordinary typing, is appended whole by the code and could carry non-printable characters.
- The active-row highlight, the indentation pixels (depth × 12) and the dialog open/close state of the explorer are UI only and not modelled.
- Sandpack bundling and preview, the console panel, the AI assistant's code generation, the theme and the page layout are outside this core. The assistant is only seen through `handleApplyGeneratedCode`.
- Explorer.FileNames: the result is specified as the unique sorted listing (`Explorer.SortedUnique`), not as the exact sequence of comparisons a particular engine's sort performs.

=== FILE: editor.dfy ===
/** The editor's handlers as transitions of the pair (files, active file). */
module Editor {
  import opened Wrappers
  import opened Text
  import opened Manifest
  import Sandpack

  datatype EditorState = EditorState(files: Sandpack.FileStructure, activeFile: string)

  /** The starting state: the default files with `/App.js` selected. */
  function Initial(appCode: string, indexCode: string, codec: JsonCodec): (ed: EditorState)
    ensures ed.activeFile in ed.files
    ensures Sandpack.IndexPath in ed.files && Sandpack.ManifestPath in ed.files
  {
    EditorState(Sandpack.DefaultFiles(appCode, indexCode, codec), Sandpack.AppPath)
  }

  /** Whether the active file names a path of the project. */
  predicate ActiveResolves(ed: EditorState) {
    ed.activeFile in ed.files
  }

  // ---------------------------------------------------------------------------
  // Terminal commands
  // ---------------------------------------------------------------------------

  /** The package an `npm install` / `npm i` line asks for: the third
      space-separated word cut at its first `@`. None when the line is not
      routed or has at most two words. */
  function PackageToInstall(command: string): (r: Option<string>)
    ensures r.Some? <==> StartsWith(command, "npm i") && Count(command, ' ') >= 2
    ensures r.Some? ==> ' ' !in r.value && '@' !in r.value
  {
    if StartsWith(command, "npm install") || StartsWith(command, "npm i") then
      var parts := Split(command, ' ');
      if |parts| > 2 then
        SplitHead(parts[2], '@');
        PrefixLacks(parts[2], Split(parts[2], '@')[0], ' ');
        Some(Split(parts[2], '@')[0])
      else None
    else None
  }

  /** `handleAddDependency`: the package is recorded at version `latest`. A
      failure is the exception the queued update throws at the next render,
      which unmounts the editor. */
  function OnAddDependency(ed: EditorState, name: string, codec: JsonCodec): (r: Result<EditorState, JsError>)
    ensures r.Success? <==> Sandpack.AddDependency(ed.files, name, "latest", codec).Success?
    ensures r.Success? ==> r.value.files == Sandpack.AddDependency(ed.files, name, "latest", codec).value
    ensures r.Failure? ==> r.error == Sandpack.AddDependency(ed.files, name, "latest", codec).error
    ensures r.Success? ==> r.value.activeFile == ed.activeFile && r.value.files.Keys == ed.files.Keys
    ensures r.Success? ==> forall k :: k in ed.files && k != Sandpack.ManifestPath ==> r.value.files[k] == ed.files[k]
  {
    match Sandpack.AddDependency(ed.files, name, "latest", codec)
    case Success(files) => Success(ed.(files := files))
    case Failure(e) => Failure(e)
  }

  /** `handleTerminalCommand`: only a routed install line touches the project,
      and then only the manifest; the active file never changes. */
  function OnTerminalCommand(ed: EditorState, command: string, codec: JsonCodec): (r: Result<EditorState, JsError>)
    ensures PackageToInstall(command).None? ==> r == Success(ed)
    ensures PackageToInstall(command).Some? ==> r == OnAddDependency(ed, PackageToInstall(command).value, codec)
    ensures r.Success? ==> r.value.activeFile == ed.activeFile && r.value.files.Keys == ed.files.Keys
    ensures r.Success? ==> forall k :: k in ed.files && k != Sandpack.ManifestPath ==> r.value.files[k] == ed.files[k]
  {
    match PackageToInstall(command)
    case None => Success(ed)
    case Some(name) => OnAddDependency(ed, name, codec)
  }

  // ---------------------------------------------------------------------------
  // File explorer and assistant callbacks
  // ---------------------------------------------------------------------------

  /** `handleFileSelect`: any path becomes active, existing or not. */
  function OnFileSelect(ed: EditorState, path: string): (r: EditorState)
    ensures r.files == ed.files && r.activeFile == path
  {
    ed.(activeFile := path)
  }

  /** `handleAddFile`: the file is upserted and becomes the active file. */
  function OnAddFile(ed: EditorState, path: string, content: string): (r: EditorState)
    ensures r.activeFile == path && ActiveResolves(r)
    ensures r.files[path] == Some(Sandpack.FileEntry(content, Some(true)))
    ensures r.files.Keys == ed.files.Keys + {path}
    ensures forall k :: k in ed.files && k != path ==> r.files[k] == ed.files[k]
  {
    EditorState(Sandpack.AddNewFile(ed.files, path, content), path)
  }

  /** Paths the editor refuses to delete. */
  predicate IsProtected(path: string) {
    path == Sandpack.IndexPath || path == Sandpack.ManifestPath
  }

  /** `handleDeleteFile`: `/index.js` and `/package.json` are refused; any other
      path is removed, and if it was active the selection falls back to
      `/App.js`. */
  function OnDeleteFile(ed: EditorState, path: string): (r: EditorState)
    ensures IsProtected(path) ==> r == ed
    ensures !IsProtected(path) ==> r.files.Keys == ed.files.Keys - {path}
    ensures forall k :: k in r.files ==> r.files[k] == ed.files[k]
    ensures r.activeFile == (if ed.activeFile == path && !IsProtected(path) then Sandpack.AppPath else ed.activeFile)
    ensures Sandpack.IndexPath in ed.files ==> Sandpack.IndexPath in r.files
    ensures Sandpack.ManifestPath in ed.files ==> Sandpack.ManifestPath in r.files
  {
    if IsProtected(path) then ed
    else
      var files := Sandpack.DeleteFile(ed.files, path);
      EditorState(files, if ed.activeFile == path then Sandpack.AppPath else ed.activeFile)
  }

  /** `handleRenameFile`: the entry moves (no protection, no existence check)
      and the selection follows it exactly when it was on the old path. */
  function OnRenameFile(ed: EditorState, oldPath: string, newPath: string): (r: EditorState)
    ensures r.files.Keys == ed.files.Keys - {oldPath} + {newPath}
    ensures r.files[newPath] == (if oldPath in ed.files then ed.files[oldPath] else None)
    ensures forall k :: k in ed.files && k != oldPath && k != newPath ==> r.files[k] == ed.files[k]
    ensures ed.activeFile == oldPath ==> r.activeFile == newPath
    ensures ed.activeFile != oldPath ==> r.activeFile == ed.activeFile
  {
    var files := Sandpack.RenameFile(ed.files, oldPath, newPath);
    EditorState(files, if ed.activeFile == oldPath then newPath else ed.activeFile)
  }

  /** The path generated code is saved under for a given clock reading. */
  function GeneratedPath(timestamp: int): (p: string)
    ensures StartsWith(p, "/GeneratedComponent_") && EndsWith(p, ".js")
    ensures |p| == |"/GeneratedComponent_"| + |IntToString(timestamp)| + 3
    ensures p[|"/GeneratedComponent_"|..|p| - 3] == IntToString(timestamp)
  {
    var p := "/GeneratedComponent_" + IntToString(timestamp) + ".js";
    assert p[|"/GeneratedComponent_"|..|p| - 3] == IntToString(timestamp);
    p
  }

  /** `handleApplyGeneratedCode`: the code is saved as a new active file whose
      name carries the clock reading. */
  function OnApplyGeneratedCode(ed: EditorState, code: string, timestamp: int): (r: EditorState)
    ensures r.activeFile == GeneratedPath(timestamp) && ActiveResolves(r)
    ensures r.files[GeneratedPath(timestamp)] == Some(Sandpack.FileEntry(code, Some(true)))
    ensures r.files.Keys == ed.files.Keys + {GeneratedPath(timestamp)}
    ensures forall k :: k in ed.files && k != GeneratedPath(timestamp) ==> r.files[k] == ed.files[k]
  {
    OnAddFile(ed, GeneratedPath(timestamp), code)
  }

  // ---------------------------------------------------------------------------
  // Properties of the handlers
  // ---------------------------------------------------------------------------

  /** Different clock readings give different generated paths. */
  lemma GeneratedPathInjective(t1: int, t2: int)
    requires GeneratedPath(t1) == GeneratedPath(t2)
    ensures t1 == t2
  {
    var p := GeneratedPath(t1);
    assert p[|"/GeneratedComponent_"|..|p| - 3] == IntToString(t1) == IntToString(t2);
    IntToStringInjective(t1, t2);
  }

  /** A line `npm <verb> <rest>` whose verb starts with `i` installs the
      first word of `rest`, cut at its first `@`. */
  lemma InstallWords(verb: string, rest: string)
    requires ' ' !in verb && |verb| >= 1 && verb[0] == 'i'
    ensures PackageToInstall("npm " + verb + " " + rest) == Some(Split(Split(rest, ' ')[0], '@')[0])
  {
    var command := "npm " + verb + " " + rest;
    assert command[..5] == "npm i";
    assert command == "npm" + [' '] + (verb + [' '] + rest);
    SplitTwoWords("npm", verb, rest);
    var parts := Split(command, ' ');
    assert |parts| > 2 && parts[2] == Split(rest, ' ')[0];
  }

  /** Two space-free words in front of `rest` split off as the first two parts. */
  lemma SplitTwoWords(w1: string, w2: string, rest: string)
    requires ' ' !in w1 && ' ' !in w2
    ensures Split(w1 + [' '] + (w2 + [' '] + rest), ' ') == [w1, w2] + Split(rest, ' ')
  {
    var tail := w2 + [' '] + rest;
    WordThen(w2, rest);
    WordThen(w1, tail);
    assert [w1] + ([w2] + Split(rest, ' ')) == [w1, w2] + Split(rest, ' ');
  }

  /** A space-free word in front of `rest` splits off as the first part. */
  lemma WordThen(w: string, rest: string)
    requires ' ' !in w
    ensures Split(w + [' '] + rest, ' ') == [w] + Split(rest, ' ')
  {
    SplitAppend(w, rest, ' ');
    SplitWithoutSeparator(w, ' ');
  }

  /** `npm install pkg@version` installs `pkg`: the version is discarded. */
  lemma InstallDiscardsVersion(pkg: string, version: string)
    requires ' ' !in pkg && '@' !in pkg && ' ' !in version
    ensures PackageToInstall("npm install " + pkg + "@" + version) == Some(pkg)
  {
    var spec := pkg + "@" + version;
    assert "npm install " + pkg + "@" + version == "npm " + "install" + " " + spec;
    InstallWords("install", spec);
    assert ' ' !in spec;
    SplitWithoutSeparator(spec, ' ');
    NameBeforeAt(pkg, version);
  }

  /** In `pkg@version` with an `@`-free `pkg`, the text before the first `@` is `pkg`. */
  lemma NameBeforeAt(pkg: string, version: string)
    requires '@' !in pkg
    ensures Split(pkg + "@" + version, '@')[0] == pkg
  {
    assert pkg + "@" + version == pkg + ['@'] + version;
    SplitAppend(pkg, version, '@');
    SplitWithoutSeparator(pkg, '@');
  }

  /** `npm i pkg` installs `pkg`; the prefix test is literal, so `npm init pkg`
      is routed the same way. */
  lemma ShortInstall(pkg: string)
    requires ' ' !in pkg && '@' !in pkg
    ensures PackageToInstall("npm i " + pkg) == Some(pkg)
    ensures PackageToInstall("npm init " + pkg) == Some(pkg)
  {
    BareWordInstalls("i", pkg);
    assert "npm i " + pkg == "npm " + "i" + " " + pkg;
    BareWordInstalls("init", pkg);
    assert "npm init " + pkg == "npm " + "init" + " " + pkg;
  }

  /** A routed line whose third word is a bare name installs that name. */
  lemma BareWordInstalls(verb: string, pkg: string)
    requires ' ' !in verb && |verb| >= 1 && verb[0] == 'i'
    requires ' ' !in pkg && '@' !in pkg
    ensures PackageToInstall("npm " + verb + " " + pkg) == Some(pkg)
  {
    InstallWords(verb, pkg);
    SplitWithoutSeparator(pkg, ' ');
    SplitWithoutSeparator(pkg, '@');
  }

  /** A scoped package starts with `@`, so the name cut before it is empty. */
  lemma ScopedPackageIsEmpty(scoped: string)
    requires ' ' !in scoped
    ensures PackageToInstall("npm i @" + scoped) == Some("")
  {
    var word := "@" + scoped;
    InstallWords("i", word);
    assert "npm i @" + scoped == "npm " + "i" + " " + word;
    assert ' ' !in word;
    SplitWithoutSeparator(word, ' ');
    assert word[0] == '@';
    assert Split(word, '@')[0] == "";
  }

  /** Two spaces before the package make the third word empty. */
  lemma DoubleSpaceIsEmpty(pkg: string)
    ensures PackageToInstall("npm install  " + pkg) == Some("")
  {
    var rest := " " + pkg;
    InstallWords("install", rest);
    assert "npm install  " + pkg == "npm " + "install" + " " + rest;
    assert rest[0] == ' ';
    assert Split(rest, ' ')[0] == "";
    assert Split("", '@') == [""];
  }

  /** An `npm install` with a package records it at `latest`, keeps the other
      dependencies and manifest fields, and leaves everything else alone: the
      manifest written is the printed merged manifest, which parses back to it
      whenever the merged manifest survives a print-and-parse round trip. */
  lemma InstallRecordsLatest(ed: EditorState, pkg: string, version: string, codec: JsonCodec, fields: map<string, Json>)
    requires ' ' !in pkg && '@' !in pkg && ' ' !in version
    requires Sandpack.ManifestPath in ed.files && ed.files[Sandpack.ManifestPath].Some?
    requires codec.parse(ed.files[Sandpack.ManifestPath].value.code) == Some(Obj(fields))
    ensures var r := OnTerminalCommand(ed, "npm install " + pkg + "@" + version, codec);
      && r.Success?
      && r.value.activeFile == ed.activeFile
      && r.value.files == Sandpack.AddDependency(ed.files, pkg, "latest", codec).value
      && Sandpack.WritesMerged(r.value.files, fields, pkg, "latest", codec)
  {
    InstallDiscardsVersion(pkg, version);
    Sandpack.AddDependencyRecordsVersion(ed.files, pkg, "latest", codec, fields);
  }

  /** Deleting `/index.js` or `/package.json` is refused outright. */
  lemma ProtectedDeleteRefused(ed: EditorState)
    ensures OnDeleteFile(ed, Sandpack.IndexPath) == ed
    ensures OnDeleteFile(ed, Sandpack.ManifestPath) == ed
  {
  }

  /** Deleting the active `/App.js` leaves the selection on the deleted path. */
  lemma DeletingActiveAppDangles(ed: EditorState)
    requires ed.activeFile == Sandpack.AppPath
    ensures OnDeleteFile(ed, Sandpack.AppPath).activeFile == Sandpack.AppPath
    ensures !ActiveResolves(OnDeleteFile(ed, Sandpack.AppPath))
  {
  }

  /** A delete keeps the selection resolving unless it removes the active file
      while `/App.js` is missing or is the file removed. */
  lemma DeletePreservesResolution(ed: EditorState, path: string)
    requires ActiveResolves(ed)
    ensures ActiveResolves(OnDeleteFile(ed, path))
        <==> (IsProtected(path) || ed.activeFile != path || (Sandpack.AppPath in ed.files && path != Sandpack.AppPath))
  {
  }

  /** Rename always keeps a resolving selection resolving. */
  lemma RenamePreservesResolution(ed: EditorState, oldPath: string, newPath: string)
    requires ActiveResolves(ed)
    ensures ActiveResolves(OnRenameFile(ed, oldPath, newPath))
  {
  }

  /** Rename is not protected: it can move the entry module away. */
  lemma RenameCanRemoveIndex(ed: EditorState)
    requires Sandpack.IndexPath in ed.files
    ensures Sandpack.IndexPath !in OnRenameFile(ed, Sandpack.IndexPath, "/main.js").files
    ensures "/main.js" in OnRenameFile(ed, Sandpack.IndexPath, "/main.js").files
  {
  }

  /** Renaming a missing path binds the new path to `undefined` without error. */
  lemma RenameMissingBindsUndefined(ed: EditorState, oldPath: string, newPath: string)
    requires oldPath !in ed.files
    ensures newPath in OnRenameFile(ed, oldPath, newPath).files
    ensures OnRenameFile(ed, oldPath, newPath).files[newPath] == None
  {
  }

  /** Selection is not validated: a missing path can become the active file. */
  lemma SelectMissing(ed: EditorState, path: string)
    requires path !in ed.files
    ensures !ActiveResolves(OnFileSelect(ed, path))
  {
  }
}

=== FILE: explorer.dfy ===
/** The file explorer's rules: how typed names become paths, the order files
    are listed in, how each path is indented and labelled, and which entries
    offer rename and delete. */
module Explorer {
  import opened Wrappers
  import opened Text
  import Sandpack

  // ---------------------------------------------------------------------------
  // Names typed into the dialogs
  // ---------------------------------------------------------------------------

  /** A leading `/` is added to a name that lacks one. */
  function Normalize(name: string): (p: string)
    ensures StartsWith(p, "/")
    ensures StartsWith(name, "/") ==> p == name
    ensures !StartsWith(name, "/") ==> p == "/" + name
  {
    if StartsWith(name, "/") then name else "/" + name
  }

  /** Normalising an already normalised name changes nothing. */
  lemma NormalizeIdempotent(name: string)
    ensures Normalize(Normalize(name)) == Normalize(name)
  {
  }

  /** A request to create a file. */
  datatype AddIntent = AddIntent(path: string, content: string)

  /** A request to rename a file. */
  datatype RenameIntent = RenameIntent(oldPath: string, newPath: string)

  /** The "Create File" button: nothing for an empty name, otherwise the
      normalised path with the typed content. */
  function AddRequest(newFileName: string, content: string): (r: Option<AddIntent>)
    ensures r.None? <==> newFileName == ""
    ensures r.Some? ==> StartsWith(r.value.path, "/") && r.value.content == content
    ensures r.Some? ==> r.value.path == Normalize(newFileName)
  {
    if newFileName != "" then Some(AddIntent(Normalize(newFileName), content)) else None
  }

  /** The "Rename" button: fires only when both the file being renamed and the
      new name are non-empty; the new name is normalised, the old one is not. */
  function RenameRequest(fileToRename: string, newName: string): (r: Option<RenameIntent>)
    ensures r.Some? <==> fileToRename != "" && newName != ""
    ensures r.Some? ==> r.value.oldPath == fileToRename && r.value.newPath == Normalize(newName)
  {
    if fileToRename != "" && newName != "" then Some(RenameIntent(fileToRename, Normalize(newName))) else None
  }

  /** Rename and delete buttons are shown for every entry but the manifest. */
  predicate OffersRenameDelete(path: string) {
    path != Sandpack.ManifestPath
  }

  // ---------------------------------------------------------------------------
  // Listing order
  // ---------------------------------------------------------------------------

  /** A path with at least two `/` splits into more than two parts. */
  predicate IsNested(path: string) {
    |Split(path, '/')| > 2
  }

  /** A path is nested exactly when it holds at least two `/`. */
  lemma NestedIffTwoSlashes(path: string)
    ensures IsNested(path) <==> Count(path, '/') >= 2
  {
  }

  /** The listing comparator: the manifest sorts after everything, nested paths
      before top-level ones, and within a class code-point order decides. */
  function Compare(a: string, b: string): (r: int)
    ensures -1 <= r <= 1
    ensures a == Sandpack.ManifestPath ==> r == 1
    ensures a != Sandpack.ManifestPath && b == Sandpack.ManifestPath ==> r == -1
    ensures a != b ==> r != 0
    ensures a != Sandpack.ManifestPath && b != Sandpack.ManifestPath && IsNested(a) != IsNested(b) ==>
      (r < 0 <==> IsNested(a))
  {
    if a == Sandpack.ManifestPath then 1
    else if b == Sandpack.ManifestPath then -1
    else if IsNested(a) && !IsNested(b) then -1
    else if !IsNested(a) && IsNested(b) then 1
    else LexCompare(a, b)
  }

  predicate Precedes(a: string, b: string) {
    Compare(a, b) < 0
  }

  /** On distinct paths exactly one of the two precedes the other. */
  lemma PrecedesTotal(a: string, b: string)
    requires a != b
    ensures Precedes(a, b) <==> !Precedes(b, a)
  {
    LexAntisymmetric(a, b);
  }

  /** No path sorts before itself. */
  lemma PrecedesIrreflexive(a: string)
    ensures !Precedes(a, a)
  {
  }

  /** Sorting before is transitive, so the listing order is a strict order. */
  lemma PrecedesTransitive(a: string, b: string, c: string)
    requires Precedes(a, b) && Precedes(b, c)
    ensures Precedes(a, c)
  {
    if a != Sandpack.ManifestPath && b != Sandpack.ManifestPath && c != Sandpack.ManifestPath
       && IsNested(a) == IsNested(b) && IsNested(b) == IsNested(c) {
      LexTransitive(a, b, c);
    }
  }

  /** Listed in comparator order, hence without repeats. */
  predicate SortedForDisplay(s: seq<string>) {
    forall i, j :: 0 <= i < j < |s| ==> Precedes(s[i], s[j])
  }

  /** Inserts a new path in front of the first entry it precedes. */
  function Insert(x: string, s: seq<string>): (r: seq<string>)
    requires SortedForDisplay(s) && x !in s
    ensures SortedForDisplay(r)
    ensures multiset(r) == multiset(s) + multiset{x}
    ensures |r| == |s| + 1
    ensures forall y :: y in r <==> y == x || y in s
    decreases |s|
  {
    if |s| == 0 then [x]
    else if Precedes(x, s[0]) then
      PrecedesSorted(x, s);
      SortedCons(x, s);
      [x] + s
    else
      PrecedesTotal(x, s[0]);
      SortedTail(s);
      var rest := Insert(x, s[1..]);
      InsertBehind(x, s, rest);
      [s[0]] + rest
  }

  /** A path that sorts after the head goes into the rest of the listing. */
  lemma InsertBehind(x: string, s: seq<string>, rest: seq<string>)
    requires SortedForDisplay(s) && |s| > 0 && Precedes(s[0], x)
    requires SortedForDisplay(rest)
    requires multiset(rest) == multiset(s[1..]) + multiset{x}
    requires forall y :: y in rest <==> y == x || y in s[1..]
    ensures SortedForDisplay([s[0]] + rest)
    ensures multiset([s[0]] + rest) == multiset(s) + multiset{x}
    ensures forall y :: y in [s[0]] + rest <==> y == x || y in s
  {
    HeadPrecedesTail(s);
    SortedCons(s[0], rest);
    assert s == [s[0]] + s[1..];
  }

  /** A path that precedes the head of a sorted listing precedes all of it. */
  lemma PrecedesSorted(x: string, s: seq<string>)
    requires SortedForDisplay(s) && |s| > 0 && Precedes(x, s[0])
    ensures forall y :: y in s ==> Precedes(x, y)
  {
    forall y | y in s ensures Precedes(x, y) {
      if y != s[0] {
        PrecedesTransitive(x, s[0], y);
      }
    }
  }

  /** The head of a sorted listing precedes every later entry. */
  lemma HeadPrecedesTail(s: seq<string>)
    requires SortedForDisplay(s) && |s| > 0
    ensures forall y :: y in s[1..] ==> Precedes(s[0], y)
  {
    forall y | y in s[1..] ensures Precedes(s[0], y) {
      var j :| 0 <= j < |s[1..]| && s[1..][j] == y;
      assert s[j + 1] == y;
    }
  }

  /** A path that precedes every entry of a sorted listing can go in front. */
  lemma SortedCons(h: string, t: seq<string>)
    requires SortedForDisplay(t)
    requires forall y :: y in t ==> Precedes(h, y)
    ensures SortedForDisplay([h] + t)
  {
    var r := [h] + t;
    forall i, j | 0 <= i < j < |r| ensures Precedes(r[i], r[j]) {
      assert r[j] == t[j - 1];
      if i > 0 {
        assert r[i] == t[i - 1];
      }
    }
  }

  /** Two sorted listings of the same paths are the same listing: the order
      does not depend on the order the keys were enumerated in. */
  lemma {:induction false} SortedUnique(a: seq<string>, b: seq<string>)
    requires SortedForDisplay(a) && SortedForDisplay(b)
    requires forall y :: y in a <==> y in b
    ensures a == b
    decreases |a|
  {
    assert |a| > 0 ==> a[0] in b;
    assert |b| > 0 ==> b[0] in a;
    if |a| > 0 && |b| > 0 {
      SameHead(a, b);
      SameTail(a, b);
      SortedTail(a);
      SortedTail(b);
      SortedUnique(a[1..], b[1..]);
      assert a == [a[0]] + a[1..];
      assert b == [b[0]] + b[1..];
    }
  }

  /** Sorted listings of the same paths start with the same path. */
  lemma SameHead(a: seq<string>, b: seq<string>)
    requires SortedForDisplay(a) && SortedForDisplay(b) && |a| > 0 && |b| > 0
    requires forall y :: y in a <==> y in b
    ensures a[0] == b[0]
  {
    if a[0] != b[0] {
      assert b[0] in b && a[0] in a;
      var i :| 0 <= i < |a| && a[i] == b[0];
      var j :| 0 <= j < |b| && b[j] == a[0];
      PrecedesTotal(a[0], b[0]);
    }
  }

  /** With the head in common, the rest of the two listings hold the same paths. */
  lemma SameTail(a: seq<string>, b: seq<string>)
    requires SortedForDisplay(a) && SortedForDisplay(b) && |a| > 0 && |b| > 0 && a[0] == b[0]
    requires forall y :: y in a <==> y in b
    ensures forall y :: y in a[1..] <==> y in b[1..]
  {
    forall y | y in a[1..] ensures y in b[1..] {
      TailMember(a, b, y);
    }
    forall y | y in b[1..] ensures y in a[1..] {
      TailMember(b, a, y);
    }
  }

  /** A path in the rest of one listing is in the rest of the other. */
  lemma TailMember(a: seq<string>, b: seq<string>, y: string)
    requires SortedForDisplay(a) && |a| > 0 && |b| > 0 && a[0] == b[0]
    requires forall z :: z in a <==> z in b
    requires y in a[1..]
    ensures y in b[1..]
  {
    var i :| 0 <= i < |a[1..]| && a[1..][i] == y;
    assert a[i + 1] == y;
    PrecedesIrreflexive(a[0]);
    assert y != b[0];
    assert y in a;
    var j :| 0 <= j < |b| && b[j] == y;
    assert b[1..][j - 1] == y;
  }

  /** Dropping the head of a sorted listing leaves it sorted. */
  lemma SortedTail(s: seq<string>)
    requires SortedForDisplay(s) && |s| > 0
    ensures SortedForDisplay(s[1..])
  {
    forall i, j | 0 <= i < j < |s[1..]| ensures Precedes(s[1..][i], s[1..][j]) {
      assert s[1..][i] == s[i + 1] && s[1..][j] == s[j + 1];
    }
  }

  /** What a sorted listing looks like: the manifest, when listed, comes last;
      no top-level path comes before a nested one; within a class the order is
      code-point order. */
  lemma SortedListingShape(names: seq<string>)
    requires SortedForDisplay(names)
    ensures Sandpack.ManifestPath in names ==> names[|names| - 1] == Sandpack.ManifestPath
    ensures forall i, j :: 0 <= i < j < |names| && IsNested(names[j]) && names[j] != Sandpack.ManifestPath
              ==> IsNested(names[i])
    ensures forall i, j :: 0 <= i < j < |names| && names[j] != Sandpack.ManifestPath && IsNested(names[i]) == IsNested(names[j])
              ==> LexCompare(names[i], names[j]) < 0
  {
    if Sandpack.ManifestPath in names {
      var i :| 0 <= i < |names| && names[i] == Sandpack.ManifestPath;
    }
  }

  /** `Object.keys(files).sort(...)`: every path exactly once, in comparator order. */
  method FileNames(files: Sandpack.FileStructure) returns (names: seq<string>)
    ensures forall k :: k in files <==> k in names
    ensures |names| == |files|
    ensures SortedForDisplay(names)
  {
    names := [];
    var rest := files.Keys;
    while rest != {}
      invariant SortedForDisplay(names)
      invariant forall k :: k in files <==> k in names || k in rest
      invariant forall k :: k in rest ==> k !in names
      invariant |names| + |rest| == |files.Keys|
      decreases rest
    {
      var k :| k in rest;
      names := Insert(k, names);
      rest := rest - {k};
    }
  }

  // ---------------------------------------------------------------------------
  // Indentation and label
  // ---------------------------------------------------------------------------

  /** The parts that `filter(Boolean)` keeps: the non-empty ones. */
  function NonEmptyParts(parts: seq<string>): (r: seq<string>)
    ensures forall i :: 0 <= i < |r| ==> r[i] != ""
    ensures multiset(r) == multiset(parts)["" := 0]
    ensures |r| <= |parts|
  {
    if |parts| == 0 then []
    else
      assert parts == [parts[0]] + parts[1..];
      if parts[0] == "" then NonEmptyParts(parts[1..])
      else [parts[0]] + NonEmptyParts(parts[1..])
  }

  /** Indentation level: one less than the number of non-empty segments, so
      -1 for a path made only of `/` and at most the number of `/`. */
  function Depth(path: string): (d: int)
    ensures -1 <= d <= Count(path, '/')
    ensures d + 1 == |multiset(Split(path, '/'))["" := 0]|
  {
    |NonEmptyParts(Split(path, '/'))| - 1
  }

  /** The label shown: the text after the last `/`. */
  function DisplayName(path: string): (name: string)
    ensures '/' !in name
    ensures EndsWith(path, name)
    ensures |name| < |path| ==> path[|path| - |name| - 1] == '/'
  {
    SplitLast(path, '/');
    var parts := Split(path, '/');
    parts[|parts| - 1]
  }

  /** For a path built from `/`-separated non-empty segments, the depth is the
      number of segments below the root, the label is the last segment, and the
      path counts as nested exactly when it has a folder segment. */
  lemma SegmentedPath(segments: seq<string>)
    requires |segments| >= 1
    requires forall i :: 0 <= i < |segments| ==> segments[i] != "" && '/' !in segments[i]
    ensures var path := "/" + Join(segments, '/');
      && Depth(path) == |segments| - 1
      && DisplayName(path) == segments[|segments| - 1]
      && (IsNested(path) <==> |segments| >= 2)
  {
    var path := "/" + Join(segments, '/');
    RootedSplit(segments);
    assert NonEmptyParts([""] + segments) == NonEmptyParts(segments) by {
      assert ([""] + segments)[1..] == segments;
    }
    AllNonEmptyKept(segments);
  }

  /** A rooted path splits into an empty first part followed by its segments. */
  lemma RootedSplit(segments: seq<string>)
    requires |segments| >= 1
    requires forall i :: 0 <= i < |segments| ==> '/' !in segments[i]
    ensures Split("/" + Join(segments, '/'), '/') == [""] + segments
  {
    var parts := [""] + segments;
    assert parts[1..] == segments;
    assert Join(parts, '/') == "/" + Join(segments, '/');
    assert forall i :: 0 <= i < |parts| ==> '/' !in parts[i] by {
      forall i | 0 < i < |parts| ensures '/' !in parts[i] {
        assert parts[i] == segments[i - 1];
      }
    }
    SplitJoin(parts, '/');
  }

  /** Filtering a list with no empty part keeps it whole. */
  lemma {:induction false} AllNonEmptyKept(parts: seq<string>)
    requires forall i :: 0 <= i < |parts| ==> parts[i] != ""
    ensures NonEmptyParts(parts) == parts
    decreases |parts|
  {
    if |parts| > 0 {
      AllNonEmptyKept(parts[1..]);
      assert parts == [parts[0]] + parts[1..];
    }
  }
}

=== FILE: manifest.dfy ===
/** The project manifest (`/package.json`) as the value `JSON.parse` yields,
    and the dependency merge `addDependency` performs on it. The JSON text
    itself stays abstract: a `JsonCodec` supplies `JSON.parse` and
    `JSON.stringify(_, null, 2)`. */
module Manifest {
  import opened Wrappers
  import opened Text

  /** A parsed JSON value. Numbers are kept as exact reals. */
  datatype Json =
    | Null
    | Bool(b: bool)
    | Num(n: real)
    | Str(s: string)
    | Arr(items: seq<Json>)
    | Obj(fields: map<string, Json>)

  /** The exceptions a manifest update can throw. */
  datatype JsError =
    | TypeError    // property access on `undefined`/`null`, or assignment to a primitive
    | SyntaxError  // `JSON.parse` rejected the text

  /** `JSON.parse` (None when it throws) and `JSON.stringify(_, null, 2)`. */
  datatype JsonCodec = JsonCodec(parse: string -> Option<Json>, stringify: Json -> string)

  /** Parsing what `j` printed as gives `j` back. The real `JSON.stringify`
      and `JSON.parse` do this for a value built from strings, booleans,
      `null`, arrays, objects and numbers that are finite doubles, which is
      every number `JSON.parse` returns except one that overflowed to
      `Infinity` (printed back as `null`). A number that is not a double,
      such as 1/3, prints rounded and does not survive. */
  predicate RoundTrips(codec: JsonCodec, j: Json) {
    codec.parse(codec.stringify(j)) == Some(j)
  }

  const DependenciesKey := "dependencies"

  /** The manifest the playground starts from. */
  const DefaultManifest: Json := Obj(map[
    "name" := Str("react-live-editor"),
    "version" := Str("1.0.0"),
    "description" := Str("A live React code editor"),
    "main" := Str("index.js"),
    DependenciesKey := Obj(map[
      "react" := Str("18.2.0"),
      "react-dom" := Str("18.2.0"),
      "react-scripts" := Str("5.0.1")])])

  /** The decimal names of the indices below `n`. */
  function IndexNames(n: nat): set<string> {
    set i | 0 <= i < n :: NatToString(i)
  }

  /** Index-keyed properties `"0"`, `"1"`, ... of an array-like value: exactly
      one key per element, named by its index. */
  function IndexKeyed(items: seq<Json>): (m: map<string, Json>)
    ensures m.Keys == IndexNames(|items|)
    ensures forall i :: 0 <= i < |items| ==> m[NatToString(i)] == items[i]
    ensures forall k :: k in m ==> AllDigits(k)
  {
    if |items| == 0 then map[]
    else
      var last := |items| - 1;
      var prev := IndexKeyed(items[..last]);
      var m := prev[NatToString(last) := items[last]];
      IndexNamesStep(last);
      assert m.Keys == prev.Keys + {NatToString(last)};
      IndexValuesStep(items, prev);
      m
  }

  /** Binding the last index keeps the bindings of the earlier ones. */
  lemma IndexValuesStep(items: seq<Json>, prev: map<string, Json>)
    requires |items| > 0
    requires forall i :: 0 <= i < |items| - 1 ==> NatToString(i) in prev && prev[NatToString(i)] == items[i]
    ensures forall i :: 0 <= i < |items| ==>
      prev[NatToString(|items| - 1) := items[|items| - 1]][NatToString(i)] == items[i]
  {
    var last := |items| - 1;
    forall i | 0 <= i < last ensures NatToString(i) != NatToString(last) {
      NatToStringDistinct(i, last);
    }
  }

  /** The names of the indices below `n + 1` are those below `n` and `n`'s. */
  lemma IndexNamesStep(n: nat)
    ensures IndexNames(n + 1) == IndexNames(n) + {NatToString(n)}
  {
  }

  /** The own enumerable properties that `{...v}` copies; `None` is `undefined`.
      Objects give their fields, strings and arrays their index-keyed elements,
      and every other value nothing. */
  function Spread(v: Option<Json>): (m: map<string, Json>)
    ensures v.Some? && v.value.Obj? ==> m == v.value.fields
    ensures (v.None? || (!v.value.Obj? && !v.value.Str? && !v.value.Arr?)) ==> m == map[]
    ensures v.Some? && v.value.Arr? ==> m == IndexKeyed(v.value.items)
    ensures v.Some? && v.value.Str? ==> m.Keys == IndexNames(|v.value.s|)
    ensures v.Some? && v.value.Str? ==> forall i :: 0 <= i < |v.value.s| ==> m[NatToString(i)] == Str([v.value.s[i]])
  {
    match v
    case Some(Obj(fields)) => fields
    case Some(Str(s)) => IndexKeyed(seq(|s|, i requires 0 <= i < |s| => Str([s[i]])))
    case Some(Arr(items)) => IndexKeyed(items)
    case _ => map[]
  }

  /** The dependencies map after `name := version` is merged into what was there. */
  function MergedDependencies(fields: map<string, Json>, name: string, version: string): map<string, Json> {
    Spread(Lookup(fields, DependenciesKey))[name := Str(version)]
  }

  /** An object manifest with its `dependencies` replaced by the merged map. */
  function MergedManifest(fields: map<string, Json>, name: string, version: string): Json {
    Obj(fields[DependenciesKey := Obj(MergedDependencies(fields, name, version))])
  }

  /** `packageJson.dependencies = {...packageJson.dependencies, [name]: version}`
      seen through `JSON.stringify`: an object gets the merged dependencies and
      keeps every other field; an array keeps the new property out of its
      printed form; a primitive or `null` root throws a `TypeError`. */
  function WithDependency(root: Json, name: string, version: string): (r: Result<Json, JsError>)
    ensures r.Failure? <==> !root.Obj? && !root.Arr?
    ensures r.Failure? ==> r.error == TypeError
    ensures root.Arr? ==> r == Success(root)
    ensures root.Obj? ==> (
      && r.Success? && r.value.Obj?
      && r.value.fields.Keys == root.fields.Keys + {DependenciesKey}
      && (forall k :: k in root.fields && k != DependenciesKey ==> r.value.fields[k] == root.fields[k])
      && r.value.fields[DependenciesKey].Obj?
      && name in r.value.fields[DependenciesKey].fields
      && r.value.fields[DependenciesKey].fields[name] == Str(version))
  {
    match root
    case Obj(fields) => Success(MergedManifest(fields, name, version))
    case Arr(_) => Success(root)
    case _ => Failure(TypeError)
  }

  /** Existing dependencies other than `name` survive the merge unchanged, and
      nothing else is added. */
  lemma MergeKeepsOthers(fields: map<string, Json>, name: string, version: string, deps: map<string, Json>)
    requires DependenciesKey in fields && fields[DependenciesKey] == Obj(deps)
    ensures MergedDependencies(fields, name, version).Keys == deps.Keys + {name}
    ensures forall k :: k in deps && k != name ==> MergedDependencies(fields, name, version)[k] == deps[k]
  {
  }

  /** A manifest with no `dependencies` (or `null` there) ends up with exactly
      the one new dependency. */
  lemma MergeIntoMissing(fields: map<string, Json>, name: string, version: string)
    requires DependenciesKey !in fields || fields[DependenciesKey] == Null
    ensures MergedDependencies(fields, name, version) == map[name := Str(version)]
  {
  }

  /** Merging the same dependency twice is merging it once. */
  lemma WithDependencyIdempotent(root: Json, name: string, version: string)
    requires WithDependency(root, name, version).Success?
    ensures WithDependency(WithDependency(root, name, version).value, name, version)
         == WithDependency(root, name, version)
  {
    if root.Obj? {
      MergeAgain(root.fields, name, version);
    }
  }

  /** The merged manifest already holds the merged dependencies. */
  lemma MergeAgain(fields: map<string, Json>, name: string, version: string)
    ensures MergedManifest(MergedManifest(fields, name, version).fields, name, version)
         == MergedManifest(fields, name, version)
  {
    var merged := MergedDependencies(fields, name, version);
    var once := fields[DependenciesKey := Obj(merged)];
    assert MergedDependencies(once, name, version) == merged by {
      assert Lookup(once, DependenciesKey) == Some(Obj(merged));
      UpdateSame(merged, name, Str(version));
    }
    UpdateSame(once, DependenciesKey, Obj(merged));
  }

  /** Rebinding a key to the value it already has changes nothing. */
  lemma UpdateSame(m: map<string, Json>, k: string, v: Json)
    requires k in m && m[k] == v
    ensures m[k := v] == m
  {
  }

}

=== FILE: sandpack.dfy ===
/** The project's file map and the four pure helpers that rewrite it
    (`addNewFile`, `deleteFile`, `renameFile`, `addDependency`). */
module Sandpack {
  import opened Wrappers
  import opened Manifest

  const AppPath := "/App.js"
  const IndexPath := "/index.js"
  const ManifestPath := "/package.json"

  /** `{ code, active? }`; `active` is absent (None) or a flag. */
  datatype FileEntry = FileEntry(code: string, active: Option<bool>)

  /** Path to entry. A key bound to `None` is present in the object with the
      value `undefined`, which only `renameFile` of a missing path produces. */
  type FileStructure = map<string, Option<FileEntry>>

  /** `DEFAULT_FILES`: the starter component (active), the entry module and the
      manifest printed from `DefaultManifest`. The two source texts are opaque. */
  function DefaultFiles(appCode: string, indexCode: string, codec: JsonCodec): (files: FileStructure)
    ensures files.Keys == {AppPath, IndexPath, ManifestPath}
    ensures forall k :: k in files ==> files[k].Some?
    ensures files[AppPath].value.active == Some(true)
    ensures files[IndexPath].value.active == None && files[ManifestPath].value.active == None
    ensures files[ManifestPath].value.code == codec.stringify(DefaultManifest)
    ensures RoundTrips(codec, DefaultManifest) ==> codec.parse(files[ManifestPath].value.code) == Some(DefaultManifest)
  {
    map[
      AppPath := Some(FileEntry(appCode, Some(true))),
      IndexPath := Some(FileEntry(indexCode, None)),
      ManifestPath := Some(FileEntry(codec.stringify(DefaultManifest), None))]
  }

  /** `addNewFile`: binds `path` to the code, marked active, overwriting any
      previous entry; every other path keeps its entry. */
  function AddNewFile(files: FileStructure, path: string, code: string): (r: FileStructure)
    ensures r.Keys == files.Keys + {path}
    ensures r[path] == Some(FileEntry(code, Some(true)))
    ensures forall k :: k in files && k != path ==> r[k] == files[k]
  {
    files[path := Some(FileEntry(code, Some(true)))]
  }

  /** `deleteFile`: `path` is gone, every other path keeps its entry, and a
      missing path leaves the map as it was. */
  function DeleteFile(files: FileStructure, path: string): (r: FileStructure)
    ensures r.Keys == files.Keys - {path}
    ensures forall k :: k in r ==> r[k] == files[k]
    ensures path !in files ==> r == files
  {
    files - {path}
  }

  /** `renameFile`: the new path takes over the old path's former value (which
      is `undefined` when the old path was missing), the old path is removed
      unless it is also the new one, an existing entry at the new path is
      silently replaced, and every other path keeps its entry. */
  function RenameFile(files: FileStructure, oldPath: string, newPath: string): (r: FileStructure)
    ensures r.Keys == files.Keys - {oldPath} + {newPath}
    ensures r[newPath] == (if oldPath in files then files[oldPath] else None)
    ensures forall k :: k in files && k != oldPath && k != newPath ==> r[k] == files[k]
  {
    var moved := if oldPath in files then files[oldPath] else None;
    (files - {oldPath})[newPath := moved]
  }

  /** `addDependency`: reads `/package.json`, merges `name: version` into its
      dependencies and prints it back. A missing or `undefined` manifest entry
      throws a `TypeError`, unparsable text a `SyntaxError`, and a manifest that
      parses to `null` or a primitive a `TypeError`. On success only the
      manifest's code changes. */
  function AddDependency(files: FileStructure, name: string, version: string, codec: JsonCodec)
    : (r: Result<FileStructure, JsError>)
    ensures (ManifestPath !in files || files[ManifestPath].None?) ==> r == Failure(TypeError)
    ensures ManifestPath in files && files[ManifestPath].Some? ==> (
      var parsed := codec.parse(files[ManifestPath].value.code);
      && (parsed.None? ==> r == Failure(SyntaxError))
      && (parsed.Some? ==> (r.Failure? <==> !parsed.value.Obj? && !parsed.value.Arr?))
      && (parsed.Some? && r.Failure? ==> r.error == TypeError))
    ensures r.Success? ==> (
      && r.value.Keys == files.Keys
      && (forall k :: k in files && k != ManifestPath ==> r.value[k] == files[k])
      && r.value[ManifestPath].Some?
      && r.value[ManifestPath].value.active == files[ManifestPath].value.active
      && r.value[ManifestPath].value.code
         == codec.stringify(WithDependency(codec.parse(files[ManifestPath].value.code).value, name, version).value))
  {
    if ManifestPath !in files || files[ManifestPath].None? then Failure(TypeError)
    else
      var entry := files[ManifestPath].value;
      match codec.parse(entry.code)
      case None => Failure(SyntaxError)
      case Some(root) =>
        match WithDependency(root, name, version)
        case Failure(e) => Failure(e)
        case Success(updated) =>
          Success(files[ManifestPath := Some(entry.(code := codec.stringify(updated)))])
  }

  // ---------------------------------------------------------------------------
  // Laws relating the helpers
  // ---------------------------------------------------------------------------

  /** Adding the same file twice is adding it once. */
  lemma AddNewFileIdempotent(files: FileStructure, path: string, code: string)
    ensures AddNewFile(AddNewFile(files, path, code), path, code) == AddNewFile(files, path, code)
  {
  }

  /** Deleting a file just added undoes the add, up to the entry it replaced. */
  lemma DeleteUndoesAdd(files: FileStructure, path: string, code: string)
    ensures DeleteFile(AddNewFile(files, path, code), path) == DeleteFile(files, path)
  {
  }

  /** Renaming a present path onto itself changes nothing. */
  lemma RenameToSelf(files: FileStructure, path: string)
    requires path in files
    ensures RenameFile(files, path, path) == files
  {
  }

  /** Renaming a missing path onto itself creates an `undefined` binding. */
  lemma RenameMissingToSelf(files: FileStructure, path: string)
    requires path !in files
    ensures RenameFile(files, path, path) == files[path := None]
  {
  }

  /** Renaming to a fresh path and back restores the map. */
  lemma RenameRoundTrip(files: FileStructure, a: string, b: string)
    requires a in files && b !in files && a != b
    ensures RenameFile(RenameFile(files, a, b), b, a) == files
  {
    var r := RenameFile(RenameFile(files, a, b), b, a);
    assert r.Keys == files.Keys;
  }

  /** `after` holds, at `/package.json`, the printed manifest with
      `name: version` merged into `fields`; that text parses back to the
      merged manifest whenever the merged manifest survives a print-and-parse
      round trip. */
  predicate WritesMerged(after: FileStructure, fields: map<string, Json>, name: string, version: string,
                         codec: JsonCodec) {
    && ManifestPath in after && after[ManifestPath].Some?
    && after[ManifestPath].value.code == codec.stringify(MergedManifest(fields, name, version))
    && (RoundTrips(codec, MergedManifest(fields, name, version))
        ==> codec.parse(after[ManifestPath].value.code) == Some(MergedManifest(fields, name, version)))
  }

  /** For an object manifest the update succeeds and writes the printed
      manifest with the dependency merged in: `name` maps to `version`, other
      existing dependencies and every other manifest field are kept. That text
      parses back to the merged manifest whenever the merged manifest survives
      a print-and-parse round trip. */
  lemma AddDependencyRecordsVersion(files: FileStructure, name: string, version: string,
                                    codec: JsonCodec, fields: map<string, Json>)
    requires ManifestPath in files && files[ManifestPath].Some?
    requires codec.parse(files[ManifestPath].value.code) == Some(Obj(fields))
    ensures AddDependency(files, name, version, codec).Success?
    ensures WritesMerged(AddDependency(files, name, version, codec).value, fields, name, version, codec)
  {
  }

  /** Adding the same dependency twice yields the same files as adding it
      once, when the manifest written the first time parses back to itself. */
  lemma AddDependencyIdempotent(files: FileStructure, name: string, version: string, codec: JsonCodec,
                                root: Json, updated: Json)
    requires ManifestPath in files && files[ManifestPath].Some?
    requires codec.parse(files[ManifestPath].value.code) == Some(root)
    requires WithDependency(root, name, version) == Success(updated)
    requires RoundTrips(codec, updated)
    ensures AddDependency(files, name, version, codec).Success?
    ensures AddDependency(AddDependency(files, name, version, codec).value, name, version, codec)
         == AddDependency(files, name, version, codec)
  {
    var once := AddDependency(files, name, version, codec).value;
    assert once[ManifestPath].value.code == codec.stringify(updated);
    WithDependencyIdempotent(root, name, version);
    assert once[ManifestPath := Some(once[ManifestPath].value.(code := codec.stringify(updated)))] == once;
  }

  /** The starter project's dependencies with `lodash` added at `latest`. */
  const DefaultWithLodash: Json := Obj(DefaultManifest.fields[DependenciesKey := Obj(map[
    "react" := Str("18.2.0"),
    "react-dom" := Str("18.2.0"),
    "react-scripts" := Str("5.0.1"),
    "lodash" := Str("latest")])])

  /** Installing `lodash` into the starter project keeps the three React
      packages and adds `lodash` at `latest`. */
  lemma DefaultProjectGainsLodash(appCode: string, indexCode: string, codec: JsonCodec)
    requires RoundTrips(codec, DefaultManifest)
    ensures var r := AddDependency(DefaultFiles(appCode, indexCode, codec), "lodash", "latest", codec);
      && r.Success?
      && r.value[ManifestPath].value.code == codec.stringify(DefaultWithLodash)
      && (RoundTrips(codec, DefaultWithLodash) ==> codec.parse(r.value[ManifestPath].value.code) == Some(DefaultWithLodash))
  {
    var files := DefaultFiles(appCode, indexCode, codec);
    AddDependencyRecordsVersion(files, "lodash", "latest", codec, DefaultManifest.fields);
    assert MergedManifest(DefaultManifest.fields, "lodash", "latest") == DefaultWithLodash;
  }
}

=== FILE: session.dfy ===
/** How the three front ends drive the editor state: the terminal hands its
    forwarded commands to `handleTerminalCommand`, and the file explorer hands
    its normalised requests to the add, delete and rename handlers. */
module Session {
  import opened Wrappers
  import opened Text
  import opened Manifest
  import Sandpack
  import Terminal
  import Explorer
  import opened Editor

  /** A dispatch reaching the editor: only forwarded commands can change it. */
  function HandleDispatch(ed: EditorState, d: Terminal.Dispatch, codec: JsonCodec): (r: Result<EditorState, JsError>)
    ensures !d.Forward? ==> r == Success(ed)
    ensures d.Forward? ==> r == OnTerminalCommand(ed, d.command, codec)
    ensures r.Success? ==> r.value.activeFile == ed.activeFile && r.value.files.Keys == ed.files.Keys
    ensures r.Success? ==> forall k :: k in ed.files && k != Sandpack.ManifestPath ==> r.value.files[k] == ed.files[k]
  {
    match d
    case Forward(command) => OnTerminalCommand(ed, command, codec)
    case _ => Success(ed)
  }

  /** Enter pressed with `line` in the terminal buffer. */
  function SubmitLine(ed: EditorState, line: string, codec: JsonCodec): (r: Result<EditorState, JsError>)
    ensures AllSpace(line) ==> r == Success(ed)
    ensures !AllSpace(line) ==> r == HandleDispatch(ed, Terminal.Route(Trim(line)), codec)
    ensures Trim(line) != "clear" && Trim(line) != "help" && !AllSpace(line) ==>
      r == OnTerminalCommand(ed, Trim(line), codec)
    ensures r.Success? ==> r.value.activeFile == ed.activeFile && r.value.files.Keys == ed.files.Keys
    ensures r.Success? ==> forall k :: k in ed.files && k != Sandpack.ManifestPath ==> r.value.files[k] == ed.files[k]
  {
    var s := Terminal.Step(line, Terminal.EnterKey);
    if s.submitted.Some? then HandleDispatch(ed, Terminal.Route(s.submitted.value), codec) else Success(ed)
  }

  /** `clear` and `help`, with any surrounding blanks, never reach the project. */
  lemma BuiltinsLeaveProjectAlone(ed: EditorState, line: string, codec: JsonCodec)
    requires Trim(line) == "clear" || Trim(line) == "help"
    ensures SubmitLine(ed, line, codec) == Success(ed)
  {
  }

  /** Typing `npm install pkg@version` and pressing Enter records `pkg` at
      `latest` in the manifest, whatever version was typed: the manifest
      written is the printed merged manifest. */
  lemma TypedInstall(ed: EditorState, pkg: string, version: string, codec: JsonCodec, fields: map<string, Json>)
    requires ' ' !in pkg && '@' !in pkg && ' ' !in version
    requires Terminal.AllPrintable(pkg) && Terminal.AllPrintable(version)
    requires Sandpack.ManifestPath in ed.files && ed.files[Sandpack.ManifestPath].Some?
    requires codec.parse(ed.files[Sandpack.ManifestPath].value.code) == Some(Obj(fields))
    ensures var line := "npm install " + pkg + "@" + version;
      && Terminal.Replay("", Terminal.Typed(line) + [Terminal.EnterKey])
         == Terminal.Trace("", [Terminal.Forward(line)])
      && SubmitLine(ed, line, codec).Success?
      && Sandpack.WritesMerged(SubmitLine(ed, line, codec).value.files, fields, pkg, "latest", codec)
  {
    var line := "npm install " + pkg + "@" + version;
    InstallLineIsClean(pkg, version);
    Terminal.TypeAndEnter(line);
    InstallRecordsLatest(ed, pkg, version, codec, fields);
  }

  /** An install line is printable, already trimmed and not blank. */
  lemma InstallLineIsClean(pkg: string, version: string)
    requires ' ' !in version
    requires Terminal.AllPrintable(pkg) && Terminal.AllPrintable(version)
    ensures var line := "npm install " + pkg + "@" + version;
      Terminal.AllPrintable(line) && Trim(line) == line && !AllSpace(line)
  {
    var line := "npm install " + pkg + "@" + version;
    assert Terminal.AllPrintable(line) by {
      forall i | 0 <= i < |line| ensures Terminal.IsPrintable(line[i]) {
        if i < 12 {
          assert line[i] == "npm install "[i];
        } else if i < 12 + |pkg| {
          assert line[i] == pkg[i - 12];
        } else if i == 12 + |pkg| {
          assert line[i] == '@';
        } else {
          assert line[i] == version[i - 13 - |pkg|];
        }
      }
    }
    assert line[0] == 'n';
    var last := line[|line| - 1];
    assert last != ' ' by {
      if |version| > 0 {
        assert last == version[|version| - 1];
      } else {
        assert last == '@';
      }
    }
    assert !IsJsSpace(last) by {
      assert Terminal.IsPrintable(last);
    }
    assert "" + line + "" == line;
    TrimUnique("", line, "");
  }

  // ---------------------------------------------------------------------------
  // File explorer
  // ---------------------------------------------------------------------------

  /** "Create File": a non-empty name is added under its normalised path and
      selected; an empty name does nothing. */
  function ExplorerAdd(ed: EditorState, newFileName: string, content: string): (r: EditorState)
    ensures newFileName == "" ==> r == ed
    ensures newFileName != "" ==> r.activeFile == Explorer.Normalize(newFileName) && ActiveResolves(r)
    ensures newFileName != "" ==> StartsWith(r.activeFile, "/")
    ensures newFileName != "" ==> r.files[Explorer.Normalize(newFileName)] == Some(Sandpack.FileEntry(content, Some(true)))
    ensures newFileName != "" ==> r.files.Keys == ed.files.Keys + {Explorer.Normalize(newFileName)}
    ensures forall k :: k in ed.files && k != Explorer.Normalize(newFileName) ==> r.files[k] == ed.files[k]
  {
    match Explorer.AddRequest(newFileName, content)
    case None => ed
    case Some(intent) => OnAddFile(ed, intent.path, intent.content)
  }

  /** The delete button, shown for every entry but the manifest; the editor
      still refuses `/index.js`. */
  function ExplorerDelete(ed: EditorState, path: string): (r: EditorState)
    ensures Sandpack.IndexPath in ed.files ==> Sandpack.IndexPath in r.files
    ensures Sandpack.ManifestPath in ed.files ==> Sandpack.ManifestPath in r.files
    ensures path == Sandpack.IndexPath || path == Sandpack.ManifestPath ==> r == ed
    ensures path != Sandpack.ManifestPath ==> r == OnDeleteFile(ed, path)
    ensures path != Sandpack.IndexPath && path != Sandpack.ManifestPath ==>
      r.files.Keys == ed.files.Keys - {path} && (forall k :: k in r.files ==> r.files[k] == ed.files[k])
  {
    if Explorer.OffersRenameDelete(path) then OnDeleteFile(ed, path) else ed
  }

  /** The rename button, shown for every entry but the manifest; fires only
      with a non-empty new name, which is normalised. */
  function ExplorerRename(ed: EditorState, target: string, newName: string): (r: EditorState)
    ensures target == Sandpack.ManifestPath || target == "" || newName == "" ==> r == ed
    ensures target != Sandpack.ManifestPath && target != "" && newName != "" ==>
      r == OnRenameFile(ed, target, Explorer.Normalize(newName))
  {
    if !Explorer.OffersRenameDelete(target) then ed
    else
      match Explorer.RenameRequest(target, newName)
      case None => ed
      case Some(intent) => OnRenameFile(ed, intent.oldPath, intent.newPath)
  }

  /** The entry module is offered for rename and nothing stops the rename. */
  lemma ExplorerCanRenameIndexAway(ed: EditorState)
    requires Sandpack.IndexPath in ed.files
    ensures Sandpack.IndexPath !in ExplorerRename(ed, Sandpack.IndexPath, "main.js").files
    ensures "/main.js" in ExplorerRename(ed, Sandpack.IndexPath, "main.js").files
    ensures ExplorerRename(ed, Sandpack.IndexPath, "main.js").files["/main.js"] == ed.files[Sandpack.IndexPath]
  {
    assert Explorer.Normalize("main.js") == "/main.js" by {
      assert !StartsWith("main.js", "/") by { assert "main.js"[0] == 'm'; }
    }
  }

  /** Renaming a file to `package.json` silently replaces the manifest entry. */
  lemma ExplorerRenameOntoManifest(ed: EditorState, source: string)
    requires source in ed.files && source != Sandpack.ManifestPath && source != ""
    ensures Sandpack.ManifestPath in ExplorerRename(ed, source, "package.json").files
    ensures ExplorerRename(ed, source, "package.json").files[Sandpack.ManifestPath] == ed.files[source]
  {
    assert Explorer.Normalize("package.json") == Sandpack.ManifestPath by {
      assert !StartsWith("package.json", "/") by { assert "package.json"[0] == 'p'; }
    }
  }
}

=== FILE: terminal.dfy ===
/** The terminal's line editor: the key handler that edits the current line
    and submits it on Enter, and the routing of a submitted command to the
    built-ins or to the host. */
module Terminal {
  import opened Wrappers
  import opened Text

  /** One key event: the text the key produces and the DOM key name. */
  datatype KeyEvent = KeyEvent(key: string, domKey: string)

  /** The line after a key, and the command submitted by it, if any. */
  datatype StepResult = StepResult(line: string, submitted: Option<string>)

  /** Where a submitted command goes. */
  datatype Dispatch = ClearScreen | ShowHelp | Forward(command: string)

  /** Char codes 32 to 126. */
  predicate IsPrintable(ch: char) {
    32 <= ch as int < 127
  }

  predicate AllPrintable(s: string) {
    forall i :: 0 <= i < |s| ==> IsPrintable(s[i])
  }

  /** A key whose text starts with a printable character is that one
      character, as for ordinary typing; special keys produce escape
      sequences, which start with a control character. */
  predicate SingleCharIfPrintable(ev: KeyEvent) {
    |ev.key| <= 1 || !IsPrintable(ev.key[0])
  }

  /** The key handler. Enter always empties the line and submits its trimmed
      text unless that is empty; Backspace drops the last character of a
      non-empty line; a key whose first character is printable is appended;
      any other key changes nothing. */
  function Step(line: string, ev: KeyEvent): (r: StepResult)
    ensures ev.domKey == "Enter" ==> r.line == ""
    ensures ev.domKey == "Enter" ==> (r.submitted.None? <==> AllSpace(line))
    ensures ev.domKey == "Enter" && r.submitted.Some? ==> r.submitted.value == Trim(line)
    ensures ev.domKey != "Enter" ==> r.submitted.None?
    ensures ev.domKey == "Backspace" ==> (if |line| == 0 then r.line == "" else r.line + [line[|line| - 1]] == line)
    ensures ev.domKey != "Enter" && ev.domKey != "Backspace" ==>
      if |ev.key| > 0 && IsPrintable(ev.key[0]) then r.line == line + ev.key else r.line == line
  {
    if ev.domKey == "Enter" then
      var command := Trim(line);
      StepResult("", if |command| > 0 then Some(command) else None)
    else if ev.domKey == "Backspace" then
      StepResult(if |line| > 0 then line[..|line| - 1] else line, None)
    else if |ev.key| > 0 && IsPrintable(ev.key[0]) then
      StepResult(line + ev.key, None)
    else
      StepResult(line, None)
  }

  /** `processCommand`: `clear` and `help` are handled by the terminal and
      every other command is passed on unchanged. */
  function Route(command: string): (d: Dispatch)
    ensures d == ClearScreen <==> command == "clear"
    ensures d == ShowHelp <==> command == "help"
    ensures d.Forward? ==> d.command == command
  {
    if command == "clear" then ClearScreen
    else if command == "help" then ShowHelp
    else Forward(command)
  }

  /** Dispatches produced by one step. */
  function Dispatched(s: StepResult): seq<Dispatch> {
    if s.submitted.Some? then [Route(s.submitted.value)] else []
  }

  /** The line left after a run of key events, and every dispatch, in order. */
  datatype Trace = Trace(line: string, dispatched: seq<Dispatch>)

  /** Feeding a run of key events to the key handler: each key dispatches at
      most one command, and only Enter dispatches at all. */
  function Replay(line: string, events: seq<KeyEvent>): (t: Trace)
    ensures |t.dispatched| <= |events|
    ensures (forall i :: 0 <= i < |events| ==> events[i].domKey != "Enter") ==> t.dispatched == []
    decreases |events|
  {
    if |events| == 0 then Trace(line, [])
    else
      var s := Step(line, events[0]);
      var rest := Replay(s.line, events[1..]);
      Trace(rest.line, Dispatched(s) + rest.dispatched)
  }

  /** What reaches the host is never empty, never a built-in, and already trimmed. */
  predicate ForwardIsCommand(d: Dispatch) {
    d.Forward? ==> d.command != "" && d.command != "clear" && d.command != "help" && Trim(d.command) == d.command
  }

  predicate AllForwardsAreCommands(ds: seq<Dispatch>) {
    forall i :: 0 <= i < |ds| ==> ForwardIsCommand(ds[i])
  }

  /** A single step dispatches only well-formed commands. */
  lemma StepForwardsCommand(line: string, ev: KeyEvent)
    ensures AllForwardsAreCommands(Dispatched(Step(line, ev)))
  {
    var s := Step(line, ev);
    if s.submitted.Some? {
      var command := Trim(line);
      TrimIdempotent(line);
      assert s.submitted.value == command && command != "";
      assert ForwardIsCommand(Route(command));
      assert Dispatched(s) == [Route(command)];
      assert AllForwardsAreCommands([Route(command)]);
    } else {
      assert Dispatched(s) == [];
    }
  }

  /** A trace with `prefix` dispatched before it. */
  function After(prefix: seq<Dispatch>, t: Trace): Trace {
    Trace(t.line, prefix + t.dispatched)
  }

  /** Stepping the first remaining key moves its dispatches into the prefix. */
  lemma AfterStep(prefix: seq<Dispatch>, line: string, events: seq<KeyEvent>, i: nat)
    requires i < |events|
    ensures var s := Step(line, events[i]);
      After(prefix, Replay(line, events[i..])) == After(prefix + Dispatched(s), Replay(s.line, events[i + 1..]))
  {
    assert events[i..] == [events[i]] + events[i + 1..];
    ReplayCons(line, events[i], events[i + 1..]);
    var s := Step(line, events[i]);
    var rest := Replay(s.line, events[i + 1..]).dispatched;
    assert prefix + (Dispatched(s) + rest) == (prefix + Dispatched(s)) + rest;
  }

  /** Processes the key events one at a time, as the key handler does. */
  method Feed(line0: string, events: seq<KeyEvent>) returns (line: string, dispatched: seq<Dispatch>)
    ensures Trace(line, dispatched) == Replay(line0, events)
    ensures AllForwardsAreCommands(dispatched)
  {
    line, dispatched := line0, [];
    var i := 0;
    assert events[0..] == events;
    assert [] + Replay(line0, events).dispatched == Replay(line0, events).dispatched;
    while i < |events|
      invariant 0 <= i <= |events|
      invariant Replay(line0, events) == After(dispatched, Replay(line, events[i..]))
      invariant AllForwardsAreCommands(dispatched)
    {
      var s := Step(line, events[i]);
      AfterStep(dispatched, line, events, i);
      StepForwardsCommand(line, events[i]);
      AllForwardsAppend(dispatched, Dispatched(s));
      line, dispatched := s.line, dispatched + Dispatched(s);
      i := i + 1;
    }
    assert events[i..] == [];
    assert dispatched + [] == dispatched;
  }

  /** Concatenating two runs of well-formed dispatches keeps them well formed. */
  lemma AllForwardsAppend(a: seq<Dispatch>, b: seq<Dispatch>)
    requires AllForwardsAreCommands(a) && AllForwardsAreCommands(b)
    ensures AllForwardsAreCommands(a + b)
  {
    forall i | 0 <= i < |a + b| ensures ForwardIsCommand((a + b)[i]) {
      if i < |a| {
        assert (a + b)[i] == a[i];
      } else {
        assert (a + b)[i] == b[i - |a|];
      }
    }
  }

  /** Every command that reaches the host is a trimmed, non-empty, non-built-in line. */
  lemma {:induction false} ReplayForwardsCommands(line: string, events: seq<KeyEvent>)
    ensures AllForwardsAreCommands(Replay(line, events).dispatched)
    decreases |events|
  {
    if |events| > 0 {
      var s := Step(line, events[0]);
      ReplayForwardsCommands(s.line, events[1..]);
      StepForwardsCommand(line, events[0]);
      var out := Replay(line, events).dispatched;
      var rest := Replay(s.line, events[1..]).dispatched;
      assert out == Dispatched(s) + rest;
      forall i | 0 <= i < |out| ensures ForwardIsCommand(out[i]) {
        if i < |Dispatched(s)| {
          assert out[i] == Dispatched(s)[i];
          assert ForwardIsCommand(Dispatched(s)[i]);
        } else {
          assert out[i] == rest[i - |Dispatched(s)|];
          assert ForwardIsCommand(rest[i - |Dispatched(s)|]);
        }
      }
    }
  }

  /** The line only ever holds printable characters. */
  lemma {:induction false} ReplayKeepsPrintable(line: string, events: seq<KeyEvent>)
    requires AllPrintable(line)
    requires forall i :: 0 <= i < |events| ==> SingleCharIfPrintable(events[i])
    ensures AllPrintable(Replay(line, events).line)
    decreases |events|
  {
    if |events| > 0 {
      ReplayKeepsPrintable(Step(line, events[0]).line, events[1..]);
    }
  }

  /** The key events of typing `s` one character at a time. */
  function Typed(s: string): (evs: seq<KeyEvent>)
    ensures |evs| == |s|
  {
    if |s| == 0 then [] else [KeyEvent([s[0]], [s[0]])] + Typed(s[1..])
  }

  /** A printable character typed as a key is appended to the line. */
  lemma StepPrintable(line: string, ch: char)
    requires IsPrintable(ch)
    ensures Step(line, KeyEvent([ch], [ch])) == StepResult(line + [ch], None)
  {
    assert |[ch]| == 1;
  }

  /** Replaying a run that starts with `ev` is stepping `ev` and replaying the rest. */
  lemma ReplayCons(line: string, ev: KeyEvent, rest: seq<KeyEvent>)
    ensures Replay(line, [ev] + rest).line == Replay(Step(line, ev).line, rest).line
    ensures Replay(line, [ev] + rest).dispatched == Dispatched(Step(line, ev)) + Replay(Step(line, ev).line, rest).dispatched
  {
    assert ([ev] + rest)[0] == ev;
    assert ([ev] + rest)[1..] == rest;
  }

  /** Typing one printable character and then the rest is typing the whole text. */
  lemma TypingStep(line: string, s: string)
    requires |s| > 0 && IsPrintable(s[0])
    ensures Replay(line, Typed(s)) == Replay(line + [s[0]], Typed(s[1..]))
  {
    var ev := KeyEvent([s[0]], [s[0]]);
    assert Typed(s) == [ev] + Typed(s[1..]);
    ReplayCons(line, ev, Typed(s[1..]));
    StepPrintable(line, s[0]);
    assert Dispatched(Step(line, ev)) == [];
  }

  /** Typing printable text appends it to the line and dispatches nothing. */
  lemma {:induction false} TypingAppends(line: string, s: string)
    requires AllPrintable(s)
    ensures Replay(line, Typed(s)) == Trace(line + s, [])
    decreases |s|
  {
    if |s| > 0 {
      PrintableTail(s);
      TypingAppends(line + [s[0]], s[1..]);
      TypingAppendsStep(line, s);
    } else {
      assert line + s == line;
    }
  }

  /** The tail of printable text is printable. */
  lemma PrintableTail(s: string)
    requires |s| > 0 && AllPrintable(s)
    ensures IsPrintable(s[0]) && AllPrintable(s[1..])
  {
    forall i | 0 <= i < |s[1..]| ensures IsPrintable(s[1..][i]) {
      assert s[1..][i] == s[i + 1];
    }
  }

  /** Typing the first character and then the rest appends the whole text. */
  lemma TypingAppendsStep(line: string, s: string)
    requires |s| > 0 && IsPrintable(s[0])
    requires Replay(line + [s[0]], Typed(s[1..])) == Trace(line + [s[0]] + s[1..], [])
    ensures Replay(line, Typed(s)) == Trace(line + s, [])
  {
    TypingStep(line, s);
    AppendHead(line, s);
  }

  /** Appending the head and then the tail is appending the whole text. */
  lemma AppendHead(line: string, s: string)
    requires |s| > 0
    ensures line + [s[0]] + s[1..] == line + s
  {
    assert s == [s[0]] + s[1..];
  }

  /** Replaying two runs one after the other is replaying their concatenation. */
  lemma {:induction false} ReplayAppend(line: string, a: seq<KeyEvent>, b: seq<KeyEvent>)
    ensures Replay(line, a + b).line == Replay(Replay(line, a).line, b).line
    ensures Replay(line, a + b).dispatched
         == Replay(line, a).dispatched + Replay(Replay(line, a).line, b).dispatched
    decreases |a|
  {
    if |a| == 0 {
      assert a + b == b;
    } else {
      assert (a + b)[0] == a[0];
      assert (a + b)[1..] == a[1..] + b;
      var s := Step(line, a[0]);
      ReplayAppend(s.line, a[1..], b);
      var x := Dispatched(s);
      var y := Replay(s.line, a[1..]).dispatched;
      var z := Replay(Replay(s.line, a[1..]).line, b).dispatched;
      assert x + (y + z) == (x + y) + z;
    }
  }

  const EnterKey := KeyEvent("\r", "Enter")

  /** Typing a line and pressing Enter dispatches its trimmed text exactly once
      (nothing for a blank line) and leaves the line empty. */
  lemma TypeAndEnter(s: string)
    requires AllPrintable(s)
    ensures Replay("", Typed(s) + [EnterKey])
         == Trace("", if AllSpace(s) then [] else [Route(Trim(s))])
  {
    ReplayAppend("", Typed(s), [EnterKey]);
    TypingAppends("", s);
    assert "" + s == s;
    var after := Replay(s, [EnterKey]);
    assert [EnterKey][1..] == [];
    assert after.line == "";
  }
}

=== FILE: text.dfy ===
/** The JavaScript string built-ins the playground relies on, with their
    ECMAScript meaning: `startsWith`, `split` on a one-character separator,
    `trim`, template interpolation of an integer, and code-point ordering. */
module Text {

  /** `s.startsWith(prefix)` */
  predicate StartsWith(s: string, prefix: string) {
    |prefix| <= |s| && s[..|prefix|] == prefix
  }

  /** `s.endsWith(suffix)` */
  predicate EndsWith(s: string, suffix: string) {
    |suffix| <= |s| && s[|s| - |suffix|..] == suffix
  }

  /** Number of occurrences of `c` in `s`. */
  function Count(s: string, c: char): nat {
    if |s| == 0 then 0 else (if s[0] == c then 1 else 0) + Count(s[1..], c)
  }

  /** A character occurs zero times exactly when it is absent. */
  lemma {:induction false} CountZero(s: string, c: char)
    ensures Count(s, c) == 0 <==> c !in s
  {
    if |s| > 0 {
      CountZero(s[1..], c);
      assert s == [s[0]] + s[1..];
    }
  }

  // ---------------------------------------------------------------------------
  // split / join
  // ---------------------------------------------------------------------------

  /** `s.split(c)` for a one-character separator: the maximal runs between
      occurrences of `c`, so one more part than there are separators. */
  function Split(s: string, c: char): (parts: seq<string>)
    ensures |parts| == Count(s, c) + 1
    ensures forall i :: 0 <= i < |parts| ==> c !in parts[i]
    decreases |s|
  {
    if |s| == 0 then [""]
    else
      var rest := Split(s[1..], c);
      if s[0] == c then [""] + rest
      else [[s[0]] + rest[0]] + rest[1..]
  }

  /** `parts.join(c)` */
  function Join(parts: seq<string>, c: char): string {
    if |parts| == 0 then ""
    else if |parts| == 1 then parts[0]
    else parts[0] + [c] + Join(parts[1..], c)
  }

  /** Joining the parts of a split gives the original text back. */
  lemma {:induction false} JoinSplit(s: string, c: char)
    ensures Join(Split(s, c), c) == s
    decreases |s|
  {
    if |s| > 0 {
      var rest := Split(s[1..], c);
      JoinSplit(s[1..], c);
      assert s == [s[0]] + s[1..];
      if s[0] == c {
        assert ([""] + rest)[1..] == rest;
      } else {
        var parts := Split(s, c);
        if |rest| > 1 {
          assert parts[1..] == rest[1..];
          assert Join(rest, c) == rest[0] + [c] + Join(rest[1..], c);
        }
      }
    }
  }

  /** A text without the separator splits into itself alone. */
  lemma {:induction false} SplitWithoutSeparator(s: string, c: char)
    requires c !in s
    ensures Split(s, c) == [s]
  {
    CountZero(s, c);
    JoinSplit(s, c);
  }

  /** Splitting distributes over a separator occurrence. */
  lemma {:induction false} SplitAppend(a: string, b: string, c: char)
    ensures Split(a + [c] + b, c) == Split(a, c) + Split(b, c)
    decreases |a|
  {
    if |a| == 0 {
      SplitCons(c, b, c);
      assert a + [c] + b == [c] + b;
    } else {
      var t := a[1..] + [c] + b;
      SplitAppend(a[1..], b, c);
      assert a + [c] + b == [a[0]] + t;
      assert a == [a[0]] + a[1..];
      SplitCons(a[0], t, c);
      SplitCons(a[0], a[1..], c);
      ConsDistributes(a[0], Split(a[1..], c), Split(b, c), c);
    }
  }

  /** One step of `Split`: the first character either ends the first part or
      joins it. */
  lemma SplitCons(ch: char, t: string, c: char)
    ensures Split([ch] + t, c)
         == if ch == c then [""] + Split(t, c) else [[ch] + Split(t, c)[0]] + Split(t, c)[1..]
  {
    assert ([ch] + t)[0] == ch;
    assert ([ch] + t)[1..] == t;
  }

  /** The step of `Split` commutes with appending further parts. */
  lemma ConsDistributes(ch: char, ra: seq<string>, rb: seq<string>, c: char)
    requires |ra| > 0
    ensures (if ch == c then [""] + (ra + rb) else [[ch] + (ra + rb)[0]] + (ra + rb)[1..])
         == (if ch == c then [""] + ra else [[ch] + ra[0]] + ra[1..]) + rb
  {
    assert (ra + rb)[0] == ra[0];
    assert (ra + rb)[1..] == ra[1..] + rb;
  }

  /** Splitting a join of separator-free parts gives the parts back. */
  lemma {:induction false} SplitJoin(parts: seq<string>, c: char)
    requires |parts| >= 1
    requires forall i :: 0 <= i < |parts| ==> c !in parts[i]
    ensures Split(Join(parts, c), c) == parts
    decreases |parts|
  {
    if |parts| == 1 {
      SplitWithoutSeparator(parts[0], c);
    } else {
      SplitJoin(parts[1..], c);
      SplitAppend(parts[0], Join(parts[1..], c), c);
      SplitWithoutSeparator(parts[0], c);
      assert [parts[0]] + parts[1..] == parts;
    }
  }

  /** The first part of a split is the text before the first separator. */
  lemma {:induction false} SplitHead(s: string, c: char)
    ensures StartsWith(s, Split(s, c)[0])
    ensures |Split(s, c)[0]| < |s| ==> s[|Split(s, c)[0]|] == c
    decreases |s|
  {
    if |s| > 0 && s[0] != c {
      SplitHead(s[1..], c);
    }
  }

  /** A prefix has no character its text lacks. */
  lemma PrefixLacks(s: string, r: string, ch: char)
    requires StartsWith(s, r) && ch !in s
    ensures ch !in r
  {
  }

  /** The last part of a split is the text after the last separator. */
  lemma {:induction false} SplitLast(s: string, c: char)
    ensures var parts := Split(s, c);
      var last := parts[|parts| - 1];
      EndsWith(s, last) && (|last| < |s| ==> s[|s| - |last| - 1] == c)
    decreases |s|
  {
    if |s| > 0 {
      SplitLast(s[1..], c);
      SplitLastStep(s, c);
    }
  }

  /** The step of `SplitLast`: from the last part of the tail to the last
      part of the text. */
  lemma SplitLastStep(s: string, c: char)
    requires |s| > 0
    requires var rest := Split(s[1..], c);
      var last := rest[|rest| - 1];
      EndsWith(s[1..], last) && (|last| < |s| - 1 ==> s[1..][|s| - 1 - |last| - 1] == c)
    ensures var parts := Split(s, c);
      var last := parts[|parts| - 1];
      EndsWith(s, last) && (|last| < |s| ==> s[|s| - |last| - 1] == c)
  {
    var rest := Split(s[1..], c);
    if s[0] != c && |rest| == 1 {
      SplitSingle(s, c);
    } else {
      SplitKeepsLast(s, c);
      var last := rest[|rest| - 1];
      if s[0] != c {
        CountZero(s[1..], c);
        LastPartShorter(s[1..], last, c);
      }
      SuffixOfTail(s, last, c);
    }
  }

  /** A text whose tail has no separator, and which does not start with one,
      splits into itself. */
  lemma SplitSingle(s: string, c: char)
    requires |s| > 0 && s[0] != c && |Split(s[1..], c)| == 1
    ensures Split(s, c) == [s]
  {
    CountZero(s[1..], c);
    SplitWithoutSeparator(s[1..], c);
    assert [s[0]] + s[1..] == s;
  }

  /** When the first character is a separator or the tail has one, the last
      part of the text is the last part of its tail. */
  lemma SplitKeepsLast(s: string, c: char)
    requires |s| > 0 && (s[0] == c || |Split(s[1..], c)| > 1)
    ensures var parts, rest := Split(s, c), Split(s[1..], c);
      parts[|parts| - 1] == rest[|rest| - 1]
  {
  }

  /** A separator-free suffix of a text that contains the separator is shorter
      than the text. */
  lemma LastPartShorter(u: string, t: string, c: char)
    requires EndsWith(u, t) && c in u && c !in t
    ensures |t| < |u|
  {
    assert u[0..] == u;
  }

  /** A suffix of the tail that follows a separator (or the first character,
      when that is the separator) is a suffix of the whole text that follows
      a separator. */
  lemma SuffixOfTail(s: string, t: string, c: char)
    requires |s| > 0 && EndsWith(s[1..], t)
    requires |t| < |s| - 1 ==> s[1..][|s| - 1 - |t| - 1] == c
    requires |t| == |s| - 1 ==> s[0] == c
    ensures EndsWith(s, t) && (|t| < |s| ==> s[|s| - |t| - 1] == c)
  {
    var k := |s| - |t|;
    assert s[k..] == s[1..][k - 1..];
    if k >= 2 {
      assert s[k - 1] == s[1..][k - 2];
    } else {
      assert s[1..][0..] == s[1..];
    }
  }

  // ---------------------------------------------------------------------------
  // trim
  // ---------------------------------------------------------------------------

  /** The WhiteSpace and LineTerminator code points `String.prototype.trim` strips. */
  predicate IsJsSpace(ch: char) {
    || ch == '\t' || ch == '\n' || ch == '\U{B}' || ch == '\U{C}' || ch == '\r' || ch == ' '
    || ch == '\U{A0}' || ch == '\U{1680}' || ('\U{2000}' <= ch <= '\U{200A}')
    || ch == '\U{2028}' || ch == '\U{2029}' || ch == '\U{202F}' || ch == '\U{205F}'
    || ch == '\U{3000}' || ch == '\U{FEFF}'
  }

  predicate AllSpace(s: string) {
    forall i :: 0 <= i < |s| ==> IsJsSpace(s[i])
  }

  /** `s.trimStart()`: drops leading white space. */
  function TrimStart(s: string): string
    decreases |s|
  {
    if |s| > 0 && IsJsSpace(s[0]) then TrimStart(s[1..]) else s
  }

  /** `s.trimEnd()`: drops trailing white space. */
  function TrimEnd(s: string): string
    decreases |s|
  {
    if |s| > 0 && IsJsSpace(s[|s| - 1]) then TrimEnd(s[..|s| - 1]) else s
  }

  /** `trimStart` keeps a suffix, drops only white space, and stops at a
      non-space character. */
  lemma {:induction false} TrimStartSpec(s: string)
    ensures EndsWith(s, TrimStart(s))
    ensures AllSpace(s[..|s| - |TrimStart(s)|])
    ensures |TrimStart(s)| == 0 || !IsJsSpace(TrimStart(s)[0])
    decreases |s|
  {
    if |s| > 0 && IsJsSpace(s[0]) {
      TrimStartSpec(s[1..]);
      var r := TrimStart(s[1..]);
      var dropped := s[1..][..|s| - 1 - |r|];
      assert s[|s| - |r|..] == s[1..][|s| - 1 - |r|..];
      var pre := s[..|s| - |r|];
      assert pre == [s[0]] + dropped;
      forall i | 1 <= i < |pre| ensures IsJsSpace(pre[i]) {
        assert pre[i] == dropped[i - 1];
      }
    }
  }

  /** `trimEnd` keeps a prefix, drops only white space, and stops at a
      non-space character. */
  lemma {:induction false} TrimEndSpec(s: string)
    ensures StartsWith(s, TrimEnd(s))
    ensures AllSpace(s[|TrimEnd(s)|..])
    ensures |TrimEnd(s)| == 0 || !IsJsSpace(TrimEnd(s)[|TrimEnd(s)| - 1])
    decreases |s|
  {
    if |s| > 0 && IsJsSpace(s[|s| - 1]) {
      TrimEndSpec(s[..|s| - 1]);
      var r := TrimEnd(s[..|s| - 1]);
      var dropped := s[..|s| - 1][|r|..];
      assert s[..|r|] == s[..|s| - 1][..|r|];
      var post := s[|r|..];
      assert post == dropped + [s[|s| - 1]];
      forall i | 0 <= i < |dropped| ensures IsJsSpace(post[i]) {
        assert post[i] == dropped[i];
      }
    }
  }

  /** `s.trim()`: empty exactly for all-space text, otherwise bounded by
      non-space characters on both ends. */
  function Trim(s: string): (r: string)
    ensures |r| == 0 <==> AllSpace(s)
    ensures |r| == 0 || (!IsJsSpace(r[0]) && !IsJsSpace(r[|r| - 1]))
  {
    TrimFacts(s);
    TrimEnd(TrimStart(s))
  }

  /** Trimming both ends gives an empty text exactly for all-space input, and
      otherwise a text bounded by non-space characters. */
  lemma TrimFacts(s: string)
    ensures |TrimEnd(TrimStart(s))| == 0 <==> AllSpace(s)
    ensures var r := TrimEnd(TrimStart(s));
      |r| == 0 || (!IsJsSpace(r[0]) && !IsJsSpace(r[|r| - 1]))
  {
    var t := TrimStart(s);
    TrimStartSpec(s);
    TrimEndSpec(t);
    var k := |s| - |t|;
    if |t| == 0 {
      assert s[..k] == s;
      assert TrimEnd(t) == "";
    } else {
      TrimEndKeepsHead(t);
      assert t[0] == s[k];
    }
  }

  /** Trimming the end of a text that starts with a non-space keeps that start. */
  lemma TrimEndKeepsHead(t: string)
    ensures |t| > 0 && !IsJsSpace(t[0]) ==> |TrimEnd(t)| > 0 && TrimEnd(t)[0] == t[0]
  {
    TrimEndSpec(t);
  }

  /** Leading white space before a part that does not start with white space
      is exactly what `TrimStart` removes. */
  lemma {:induction false} TrimStartOf(pre: string, mid: string)
    requires AllSpace(pre)
    requires |mid| == 0 || !IsJsSpace(mid[0])
    ensures TrimStart(pre + mid) == mid
    decreases |pre|
  {
    if |pre| > 0 {
      assert (pre + mid)[1..] == pre[1..] + mid;
      TrimStartOf(pre[1..], mid);
    } else {
      assert pre + mid == mid;
    }
  }

  /** Trailing white space after a part that does not end with white space
      is exactly what `TrimEnd` removes. */
  lemma {:induction false} TrimEndOf(mid: string, post: string)
    requires AllSpace(post)
    requires |mid| == 0 || !IsJsSpace(mid[|mid| - 1])
    ensures TrimEnd(mid + post) == mid
    decreases |post|
  {
    if |post| > 0 {
      assert (mid + post)[..|mid + post| - 1] == mid + post[..|post| - 1];
      TrimEndOf(mid, post[..|post| - 1]);
    } else {
      assert mid + post == mid;
    }
  }

  /** `trim` is characterised by its result: whatever core text is wrapped in
      white space on both sides, `trim` returns exactly that core. */
  lemma TrimUnique(pre: string, mid: string, post: string)
    requires AllSpace(pre) && AllSpace(post)
    requires |mid| == 0 || (!IsJsSpace(mid[0]) && !IsJsSpace(mid[|mid| - 1]))
    ensures Trim(pre + mid + post) == mid
  {
    if |mid| == 0 {
      assert pre + mid + post == pre + post;
      assert AllSpace(pre + post);
    } else {
      assert pre + mid + post == pre + (mid + post);
      TrimStartOf(pre, mid + post);
      TrimEndOf(mid, post);
    }
  }

  /** Trimming twice is trimming once. */
  lemma TrimIdempotent(s: string)
    ensures Trim(Trim(s)) == Trim(s)
  {
    var r := Trim(s);
    assert "" + r + "" == r;
    TrimUnique("", r, "");
  }

  // ---------------------------------------------------------------------------
  // integers as decimal text
  // ---------------------------------------------------------------------------

  predicate IsDigit(ch: char) {
    '0' <= ch <= '9'
  }

  predicate AllDigits(s: string) {
    forall i :: 0 <= i < |s| ==> IsDigit(s[i])
  }

  function DigitChar(d: nat): (ch: char)
    requires d < 10
    ensures IsDigit(ch)
  {
    ('0' as int + d) as char
  }

  function DigitValue(ch: char): (d: nat)
    requires IsDigit(ch)
    ensures d < 10 && DigitChar(d) == ch
  {
    ch as int - '0' as int
  }

  /** Decimal value of a digit string, most significant digit first. */
  function DigitsValue(s: string): nat
    requires AllDigits(s)
  {
    if |s| == 0 then 0 else 10 * DigitsValue(s[..|s| - 1]) + DigitValue(s[|s| - 1])
  }

  /** `${n}` for a non-negative integer: decimal digits, no leading zero. */
  function NatToString(n: nat): (r: string)
    ensures |r| >= 1 && AllDigits(r)
    ensures r[0] == '0' ==> r == "0"
  {
    if n < 10 then [DigitChar(n)] else NatToString(n / 10) + [DigitChar(n % 10)]
  }

  /** Reading the digits back gives the number. */
  lemma {:induction false} NatToStringRoundTrip(n: nat)
    ensures DigitsValue(NatToString(n)) == n
  {
    if n >= 10 {
      var s := NatToString(n);
      assert s[..|s| - 1] == NatToString(n / 10);
      NatToStringRoundTrip(n / 10);
    }
  }

  /** `${i}` for an integer: a minus sign before the digits of a negative
      value; the digits read back as the magnitude. */
  function IntToString(i: int): (r: string)
    ensures |r| >= 1
    ensures i < 0 <==> r[0] == '-'
    ensures i >= 0 ==> AllDigits(r) && DigitsValue(r) == i
    ensures i < 0 ==> AllDigits(r[1..]) && DigitsValue(r[1..]) == -i
    ensures i >= 0 && r[0] == '0' ==> r == "0"
    ensures i < 0 ==> |r| >= 2 && r[1] != '0'
  {
    if i < 0 then
      NatToStringRoundTrip(-i);
      var r := "-" + NatToString(-i);
      assert r[1..] == NatToString(-i);
      r
    else
      NatToStringRoundTrip(i);
      NatToString(i)
  }

  /** Different natural numbers print differently. */
  lemma NatToStringInjective(m: nat, n: nat)
    requires NatToString(m) == NatToString(n)
    ensures m == n
  {
    NatToStringRoundTrip(m);
    NatToStringRoundTrip(n);
  }

  /** Distinct natural numbers have distinct decimal forms. */
  lemma NatToStringDistinct(m: nat, n: nat)
    requires m != n
    ensures NatToString(m) != NatToString(n)
  {
    NatToStringRoundTrip(m);
    NatToStringRoundTrip(n);
  }

  /** Different integers print differently. */
  lemma IntToStringInjective(a: int, b: int)
    requires IntToString(a) == IntToString(b)
    ensures a == b
  {
    if a < 0 {
      assert b < 0;
      var s := IntToString(a);
      assert s[1..] == NatToString(-a);
      assert s[1..] == NatToString(-b);
      NatToStringInjective(-a, -b);
    } else {
      assert b >= 0;
      NatToStringInjective(a, b);
    }
  }

  // ---------------------------------------------------------------------------
  // ordering
  // ---------------------------------------------------------------------------

  /** Code-point lexicographic comparison: -1, 0 or 1. */
  function LexCompare(a: string, b: string): (r: int)
    ensures -1 <= r <= 1
    ensures r == 0 <==> a == b
  {
    if |a| == 0 && |b| == 0 then 0
    else if |a| == 0 then -1
    else if |b| == 0 then 1
    else if a[0] < b[0] then -1
    else if a[0] > b[0] then 1
    else
      var r := LexCompare(a[1..], b[1..]);
      assert a == [a[0]] + a[1..] && b == [b[0]] + b[1..];
      r
  }

  /** Swapping the operands negates the comparison. */
  lemma {:induction false} LexAntisymmetric(a: string, b: string)
    ensures LexCompare(a, b) == -LexCompare(b, a)
    decreases |a|
  {
    if |a| > 0 && |b| > 0 && a[0] == b[0] {
      LexAntisymmetric(a[1..], b[1..]);
    }
  }

  /** The comparison is a transitive strict order. */
  lemma {:induction false} LexTransitive(a: string, b: string, c: string)
    requires LexCompare(a, b) < 0 && LexCompare(b, c) < 0
    ensures LexCompare(a, c) < 0
    decreases |a|
  {
    if |a| > 0 && |b| > 0 && |c| > 0 && a[0] == b[0] && b[0] == c[0] {
      LexTransitive(a[1..], b[1..], c[1..]);
    }
  }
}

=== FILE: wrappers.dfy ===
/** Failure-compatible wrappers used across the model: `Option` stands for a
    JavaScript value that may be `undefined`, `Result` for a call that either
    returns or throws. */
module Wrappers {

  datatype Option<+T> = None | Some(value: T)

  /** `Success` is a normal return; `Failure` is an exception escaping the call. */
  datatype Result<+R, +E> = Success(value: R) | Failure(error: E)

  /** `m[k]` in JavaScript: the bound value, or `undefined` for a missing key. */
  function Lookup<K, V>(m: map<K, V>, k: K): (r: Option<V>)
    ensures r.Some? <==> k in m
    ensures r.Some? ==> m[k] == r.value
  {
    if k in m then Some(m[k]) else None
  }
}
